=== FILE: README.md ===
# Peer visualizer: a Dafny model of the crawler, the geolocation batcher and the dashboards' grouping

The peer visualizer discovers the peers of a Tendermint/Cosmos-style node,
geolocates them and shows them grouped by country and ISP. This project models
its core and proves properties of that model:

- **Reading `/net_info`** (`NetInfo`). `fetchPeerInfo` turns a node's answer into
  peer records `{ip, rpcAddress}`. Any failure (an unreachable node, a missing
  `result.peers`, an entry without `node_info.other`) yields `[]`.
- **URL derivation** (`RpcAddress`, over the string operations of `JsString`).
  - A wildcard address `0.0.0.0` is reached at the peer's own IP, using the third
    `:`-separated piece of the address as the port.
  - A loopback address is never followed.
  - Any other address is used after dropping one leading `tcp://`.
- **The recursive crawl** (`PeerCrawl`).
  - `followRpcAddresses` is the method `Crawler.FollowRpcAddresses`. It works on a
    `visited` set that every level of the recursion shares.
  - `Expand`/`Follow` are its specification as functions.
  - The network is an oracle from URL to reply.
  - Termination rests on a finite universe of URLs that is closed under the
    network's answers.
- **Geolocation in batches** (`GeoBatch`).
  - The IPs go to the provider in chunks of 100.
  - Answer element `j` is labelled with the chunk's IP `j`.
  - A failed chunk is skipped, and the batching continues with the remaining chunks.
- **The refresh of the store** (`Sync`). The network is crawled from the node,
  the IPs found are deduplicated and geolocated, and the store is cleared and
  refilled with the records. On start-up the store is filled only when it
  is empty.
- **The dashboards** (`Grouping`, `CountryTable`, `IspChart`, `Tally`).
  - The peers page folds the stored records into country → ISP → IPs, with the
    defaults "Unknown"/"Unknown ISP".
  - The charts page does the same fold without defaults and adds a `totalIPs`
    counter per country.
  - The charts page also projects the selected country's ISPs onto pie slices.
  - A response that is not an array gives `{}` on both pages.

The files are `options.dfy`, `seqs.dfy`, `js_string.dfy`, `peer_types.dfy`,
`net_info.dfy`, `rpc_address.dfy`, `crawl.dfy`, `geo_batch.dfy`, `sync.dfy`,
`tally.dfy`, `grouping.dfy`, `country_table.dfy` and `isp_chart.dfy`. Verify them
together with `dafny verify *.dfy`.

The model follows the code as written, including where it does less than its
own comments say:

- The comment at `src/pages/api/queryNode.ts:81-82` says the wildcard branch
  preserves the port of the RPC address. The port is `split(':')[2]`, so it is
  kept when a scheme such as `tcp://` puts a colon before the host
  (`RpcAddress.WildcardUsesPeerIp`), and lost when the address has fewer than two
  colons. A wildcard address without a scheme (`0.0.0.0:26657`) has no third piece
  after `split(':')`, so the crawl fetches `http://{ip}:undefined/net_info`.
  This is `RpcAddress.WildcardWithoutSchemeLosesPort`.
- The seed URL `http://{NODE_IP}/net_info` is fetched directly. It is never added
  to the visited set, so the crawl fetches it a second time when a peer of its
  answer leads back to it (`Sync.SeedFetchedAgain`, `Sync.SeedFetchedTwice`).
- The guard at the top of the crawl loop tests the raw `rpcAddress`, not the
  derived URL, against the visited set, which holds URLs. Both tests are modelled
  (`PeerCrawl.NextUrl`).
- The refresh deletes every document and inserts the new records. The comment at
  `src/pages/api/queryNode.ts:120` suggests upserts; the code does not use them.

## Model

| member | source | states |
|---|---|---|
| NetInfo.FetchPeerInfo | src/pages/api/queryNode.ts:29-40 | a reply that cannot be read in full gives no peers; otherwise one peer per `result.peers` entry, in order, with `ip` = `remote_ip` and `rpcAddress` = `node_info.other.rpc_address` |
| NetInfo.FetchNetInfoBody | src/pages/api/queryNode.ts:32-35 | reading the reply of a node that lists some peers gives back exactly those peers (round trip) |
| RpcAddress.RpcUrl | src/pages/api/queryNode.ts:77-89 | no URL exactly when the address includes `127.0.0.1` and not `0.0.0.0`; every URL produced starts with `http://` |
| RpcAddress.PortSegment | src/pages/api/queryNode.ts:82 | the port piece never contains a colon; an address with fewer than two colons gives `undefined` |
| RpcAddress.StripTcpScheme | src/pages/api/queryNode.ts:87 | with a leading `tcp://`, putting the scheme back in front of the result gives the address; without one the address is kept |
| RpcAddress.WildcardUsesPeerIp | src/pages/api/queryNode.ts:80-83 | `tcp://0.0.0.0:{port}` becomes `http://{ip}:{port}/net_info`, with the peer's own IP and the address's port |
| RpcAddress.WildcardWithoutSchemeLosesPort | src/pages/api/queryNode.ts:80-83 | `0.0.0.0:{port}` has no third piece, so the URL is `http://{ip}:undefined/net_info` |
| RpcAddress.PlainAddressKeptVerbatim | src/pages/api/queryNode.ts:84-88 | any other address gives `http://{address}/net_info` with one leading `tcp://` removed, and is unchanged when it has no such prefix |
| RpcAddress.LoopbackIsSkipped | src/pages/api/queryNode.ts:84 | `tcp://127.0.0.1:{port}` leads to no URL, for every port without a dot (8080, 26657, ...) |
| JsString.Includes | src/pages/api/queryNode.ts:80-84 | `includes` is true exactly when the substring occurs at some index |
| JsString.Split | src/pages/api/queryNode.ts:82 | `split` always yields at least one piece |
| JsString.SplitPiecesLackSeparator | src/pages/api/queryNode.ts:82 | no piece of a split contains the separator |
| JsString.SplitCount | src/pages/api/queryNode.ts:82 | a split has one more piece than the string has separators |
| JsString.JoinSplit | src/pages/api/queryNode.ts:82 | joining the pieces of a split gives back the string |
| JsString.SplitJoin | src/pages/api/queryNode.ts:82 | splitting the join of separator-free pieces gives back the pieces |
| PeerCrawl.FetchPeers | src/pages/api/queryNode.ts:96 | an unreachable URL or an unreadable answer gives no peers; a readable answer gives one peer per listed entry |
| PeerCrawl.HasRpcAddress | src/pages/api/queryNode.ts:76 | the truth test on `rpcAddress` is false exactly for `undefined` and the empty string |
| PeerCrawl.NextUrl | src/pages/api/queryNode.ts:76-91 | a peer is fetched exactly when its address is non-empty, the address is not in `visited`, a URL is derived and that URL is not in `visited`; the URL fetched is the derived one |
| PeerCrawl.Expand | src/pages/api/queryNode.ts:75-104 | the crawl only ever adds to the visited set |
| PeerCrawl.FollowEndsWithPeers | src/pages/api/queryNode.ts:97-106 | `Follow` (one call of `followRpcAddresses`) returns the input peers last, after everything found below them, and only adds to the visited set |
| PeerCrawl.FetchedOnce | src/pages/api/queryNode.ts:91-97 | no URL is fetched twice, even around a cycle; the URLs fetched are exactly those added to the visited set |
| PeerCrawl.FetchedAreUrls | src/pages/api/queryNode.ts:83-93 | every URL the crawl fetches, and so every URL it marks visited, starts with `http://` |
| PeerCrawl.FoundIsFetchedAnswers | src/pages/api/queryNode.ts:96-97 | a peer is in the result exactly when it is listed in the answer of some URL that was fetched |
| PeerCrawl.CrawlIsComplete | src/pages/api/queryNode.ts:75-106 | when the crawl ends, no peer in its result leads to a URL outside the visited set, unless the guard at line 76 rejected that peer's address |
| PeerCrawl.Crawler.constructor | src/pages/api/queryNode.ts:116 | the crawl starts from an empty visited set |
| PeerCrawl.Crawler.FollowRpcAddresses | src/pages/api/queryNode.ts:72-107 | the method returns what `Follow` specifies and leaves the visited set and the fetch log as it does; the result ends with the input peers |
| GeoBatch.Chunks | src/pages/api/queryNode.ts:44-48 | there are ceil(n/100) chunks, each of 1 to 100 IPs |
| GeoBatch.ChunkCount | src/pages/api/queryNode.ts:47 | a request at offset 100·k is made exactly when there is a chunk k |
| GeoBatch.ChunksPrefix | src/pages/api/queryNode.ts:47-48 | the first k chunks put back together are the first min(100·k, n) IPs |
| GeoBatch.ChunksCover | src/pages/api/queryNode.ts:47-48 | the chunks put back together, in order, are exactly the IPs |
| GeoBatch.Label | src/pages/api/queryNode.ts:53-59 | one record per answer element, with that element's country, ISP, latitude and longitude; element j gets IP `batch[j]`, and an element past the end of the batch gets none |
| GeoBatch.LabelAligned | src/pages/api/queryNode.ts:53-59 | an answer with one element per query labels query j with answer j's country, ISP, latitude and longitude |
| GeoBatch.ChunkResult | src/pages/api/queryNode.ts:49-64 | a failed request adds no records; a successful one adds one record per answer element |
| GeoBatch.GeoInfo | src/pages/api/queryNode.ts:43-68 | no IPs give no records; every IP on a record is one of the input IPs |
| GeoBatch.FetchGeoInfoBatch | src/pages/api/queryNode.ts:43-68 | the requests made are exactly the chunks, in order; the result is the concatenation of every answered chunk's labelled answer |
| GeoBatch.NextChunk | src/pages/api/queryNode.ts:47-48 | the slice at the next offset is the next chunk |
| GeoBatch.ResolveAllAppend | src/pages/api/queryNode.ts:60 | resolution distributes over concatenation of chunk lists |
| GeoBatch.FailedChunkSkipped | src/pages/api/queryNode.ts:61-64 | a chunk whose request fails adds nothing, and the chunks after it are still resolved |
| GeoBatch.ResolveAllAnswered | src/pages/api/queryNode.ts:47-60 | when every chunk is answered with one element per query, the records' IPs are the chunks' IPs, in order |
| GeoBatch.AllAnswered | src/pages/api/queryNode.ts:43-68 | the same for the whole input: one record per IP, in input order |
| GeoBatch.ResolveAllIpsWithin | src/pages/api/queryNode.ts:53-54 | every IP present on a record is one of the queried IPs |
| GeoBatch.ResolveAllIpsDistinct | src/pages/api/queryNode.ts:53-54 | with an aligned provider and distinct input IPs, every record has an IP and no IP appears twice |
| GeoBatch.GeoInfoIps | src/pages/api/queryNode.ts:43-68 | with an aligned provider every record has an IP, and no IP repeats when the input has none |
| GeoBatch.MiddleChunkFails | src/pages/api/queryNode.ts:47-64 | for 250 IPs whose second chunk fails: three requests; 150 records, for IPs 1-100 and 201-250 |
| Sync.PeerStore.CountDocuments | src/pages/api/queryNode.ts:129 | the count is the number of stored documents |
| Sync.PeerStore.DeleteMany | src/pages/api/queryNode.ts:121 | the store is empty afterwards |
| Sync.PeerStore.InsertMany | src/pages/api/queryNode.ts:122 | the records are appended after the existing documents |
| Sync.Dedupe | src/pages/api/queryNode.ts:117 | no value repeats; the same values as the input; never longer than the input; the values appear in the order of their first occurrences in the input |
| Sync.DedupeDistinct | src/pages/api/queryNode.ts:117 | a list without repeats is unchanged, order included |
| Sync.PeerIps | src/pages/api/queryNode.ts:117 | the IP of each crawled peer, position by position |
| Sync.SeedUrl | src/pages/api/queryNode.ts:114 | the crawl starts at `http://{NODE_IP}/net_info`, a URL that is never put in the visited set (see `Sync.SeedFetchedAgain`) |
| Sync.SeedFetchedAgain | src/pages/api/queryNode.ts:114-116 | when a peer of the seed's answer leads to the seed URL and its raw address is not an `http://` URL, the crawl fetches the seed URL again |
| Sync.SeedFetchedTwice | src/pages/api/queryNode.ts:114-116 | in particular when that peer gives NODE_IP itself as its RPC address (no wildcard, no loopback, no scheme) |
| Sync.UpdateDatabaseWithPeerInfo | src/pages/api/queryNode.ts:111-125 | the store afterwards holds exactly the geolocated records of the distinct IPs of the crawl, whatever it held before |
| Sync.EnsureDatabaseIsPopulated | src/pages/api/queryNode.ts:127-136 | an empty store is refreshed; a non-empty store is left unchanged |
| Sync.RefreshedIps | src/pages/api/queryNode.ts:114-122 | every stored IP belongs to a crawled peer; with an aligned provider every record has an IP and no IP is stored twice |
| Sync.RefreshedAllAnswered | src/pages/api/queryNode.ts:117-122 | when every batch is answered in full, the store holds one record per distinct IP of the crawl's result, in the order of each IP's first occurrence in that result (what a peer list leads to comes before the list, and the seed's own peers come last) |
| Grouping.CountryKey | src/app/page.tsx:14 | a record is filed under its own country, or under the default exactly when it has none |
| Grouping.IspKey | src/app/page.tsx:14 | a record is filed under its own ISP, or under the default exactly when it has none |
| Grouping.Push | src/app/page.tsx:15-17 | one fold step replaces only the record's country, whose bucket gains the IP at its end |
| Grouping.IspTotalPush | src/app/page.tsx:17 | pushing an IP adds one to the ISP buckets' total |
| Grouping.TableTotalPush | src/app/page.tsx:15-17 | one fold step adds exactly one IP to the whole table |
| Grouping.GroupsPush | src/app/page.tsx:13-21 | one fold step keeps the table an exact grouping of the records seen |
| Grouping.CountriesPush | src/app/page.tsx:15 | after a step, the countries in the table are exactly the countries of the records seen |
| Grouping.IspsPush | src/app/page.tsx:16 | after a step, each country's ISPs are exactly the ISPs of the records seen under it |
| Grouping.BucketsPush | src/app/page.tsx:17 | after a step, every bucket holds the IPs of its records, in order |
| Grouping.BucketEmpty | src/app/page.tsx:16 | a country/ISP pair that no record has gets an empty bucket |
| Grouping.BucketMembers | src/app/page.tsx:17 | an IP is in a bucket exactly when some record with that country, ISP and IP exists |
| Grouping.BucketAppend | src/app/page.tsx:13-21 | the bucket of a longer list is the bucket of its prefix followed by the bucket of the rest, so records keep their order |
| Grouping.FiledUnderOwnKeys | src/app/page.tsx:14-17 | every record's IP is in the bucket under its own country and ISP keys |
| CountryTable.GroupByCountryAndIsp | src/app/page.tsx:11-25 | an array is grouped exactly, with one IP in the table per record; anything else gives `{}` |
| CountryTable.FoldStep | src/app/page.tsx:13-21 | one `reduce` step keeps the exact grouping and the IP total equal to the records seen |
| CountryTable.MissingFieldsUseDefaults | src/app/page.tsx:14 | a record with neither country nor ISP is filed under "Unknown" / "Unknown ISP" |
| IspChart.Count | src/pages/charts/index.tsx:38-41 | one fold step replaces only the record's country: one more IP at the end of its bucket, and its counter one higher |
| IspChart.CountBuckets | src/pages/charts/index.tsx:37-40 | the charts fold files IPs exactly as the peers-page fold does |
| IspChart.CountStep | src/pages/charts/index.tsx:36-45 | one `reduce` step keeps the buckets exact and every counter right |
| IspChart.CountedStep | src/pages/charts/index.tsx:38-41 | after a step, every `totalIPs` equals the records filed under its country and the IPs in its buckets |
| IspChart.CountInAbsent | src/pages/charts/index.tsx:38 | a country with no records has a count of zero, which is where a new counter starts |
| IspChart.CountRecord | src/pages/charts/index.tsx:37-43 | the `reduce` callback's four updates produce exactly the counting step `Count` |
| IspChart.GroupWithTotals | src/pages/charts/index.tsx:35-49 | an array is grouped exactly, and each country's `totalIPs` is both its record count and its bucket total; anything else gives `{}` |
| IspChart.PieData | src/pages/charts/index.tsx:62-66 | one slice per ISP; a slice is in the pie exactly when it names an ISP and its value is that ISP's number of IPs |
| IspChart.EnumerationSize | src/pages/charts/index.tsx:63 | an enumeration of the keys without repeats has one entry per key |
| IspChart.PieTotal | src/pages/charts/index.tsx:62-66 | the slice values add up to the country's number of IPs |
| IspChart.SelectPie | src/pages/charts/index.tsx:61-67 | a non-empty selected country of the grouping replaces the pie with its own slices; with no selection, an empty one or one that is not a grouped country, the pie stays as it was |
| IspChart.SelectedPieTotal | src/pages/charts/index.tsx:38-41 | a selected country's pie adds up to its `totalIPs`, which is its record count |
| Tally.SumInOrder | src/pages/charts/index.tsx:63 | summing the values in any enumeration order of the keys gives the map's sum |

## Left out

- HTTP and the database are replaced by values. `axios` with its 5-second timeout
  becomes the `Network` map and the `Provider` function, in which a timeout is
  indistinguishable from any other failure. The network is a fixed map, so a
  URL fetched twice (the seed URL, when a peer leads back to it) gets the same
  answer both times. The MongoDB collection becomes
  `PeerStore.docs`. The dashboards' `fetch` becomes a `PeersResponse` value.
- `dbConnect` is not modelled. That includes the fact that
  `updateDatabaseWithPeerInfo` does not await it.
- The scheduling is not modelled: the start-up call to `ensureDatabaseIsPopulated`,
  the 12-hour cron job, and the API handler that returns every document. Calls
  that overlap in time (a cron refresh during a request) are not modelled either.
- Logging (`console.log` / `console.error`) is not modelled.
- React state and effects are not modelled. That covers the first-country
  selection effect (charts lines 73-78) and the rendering. `SelectPie` models the
  pie effect as a function of the selection, the grouping and the previous pie.
- `Object.entries` / `Object.keys` enumeration order is not computed. The pie
  takes it as a parameter (`order`), which must list each ISP once.
- Prototype properties of plain objects are not modelled. A country or ISP named
  like a built-in property (`constructor`) would find an inherited value under
  `acc[country]`; the model treats every name as absent until it is set.
- JSON `null` is not modelled. The destructuring defaults of the peers page apply
  to a missing field (`None`); a field that is present but `null` is not
  distinguished from a missing one.
- `remote_ip` is taken to be a string. `lat` and `lon` are opaque values, with
  no numeric meaning.
- `rpc_address` is taken to be a string or absent. A node that reports a truthy
  non-string value there usually makes `.includes`, `.split` or `.replace` throw a
  `TypeError` (`src/pages/api/queryNode.ts:80-87`); an array has `includes` and
  throws only at `.split` or `.replace`, or not at all when it is skipped as a
  loopback, and a falsy `0` is stopped by the guard at line 76. Inside a recursive call the
  `catch` at lines 98-101 takes it, and the caller loses that branch's peers but
  keeps the URLs it marked visited. At the top level nothing catches it, so the
  refresh fails before `deleteMany` and the store keeps its old documents. None
  of this is modelled.
- `PeerCrawl.Crawler.FollowRpcAddresses` does not model the `try`/`catch` around
  the recursive call. With `rpc_address` a string or absent, `fetchPeerInfo` never
  throws and the recursion throws nothing, so that handler is unreachable.
- `PeerCrawl.Crawler.FollowRpcAddresses` requires a ghost universe of URLs that
  is closed under the network's answers and covers the input peers. This exists
  only for termination. `Sync` supplies one for every network (`Universe`), so
  no caller of the source is excluded.
- `GeoBatch.FetchGeoInfoBatch` returns the chunks it requested only as a ghost
  value. The provider is a total function of the batch, so two requests for the
  same chunk get the same answer.
- `src/models/PeerInfo.ts` (the mongoose schema) is not part of this model. The
  store holds `GeoRecord` values as they are given to `insertMany`.

=== FILE: country_table.dfy ===
/**
 * The peers page (`src/app/page.tsx`): the records the API returns are
 * folded into country -> ISP -> list of IPs, with "Unknown" and
 * "Unknown ISP" standing in for a missing country or ISP.
 */
module CountryTable {
  import opened PeerTypes
  import opened Grouping

  /** The destructuring defaults of the fold. */
  const PageDefaults := KeyDefaults("Unknown", "Unknown ISP")

  /**
   * `fetchPeers`' grouping: for an array, the `reduce` that creates each
   * missing country and ISP entry and pushes the IP; for anything else, `{}`.
   */
  method GroupByCountryAndIsp(data: PeersResponse) returns (grouped: Table)
    ensures data.NotAnArray? ==> grouped == map[]
    ensures data.PeerArray? ==> Groups(grouped, data.rows, PageDefaults)
    ensures data.PeerArray? ==> TableTotal(grouped) == |data.rows|
  {
    if data.PeerArray? {
      var rows := data.rows;
      var acc: Table := map[];
      assert Totals(acc) == map[];
      for k := 0 to |rows|
        invariant Groups(acc, rows[..k], PageDefaults)
        invariant TableTotal(acc) == k
      {
        var row := rows[k];
        var country := CountryKey(row, PageDefaults);
        var isp := IspKey(row, PageDefaults);
        ghost var before := acc;
        if country !in acc {
          acc := acc[country := map[]];
        }
        if isp !in acc[country] {
          acc := acc[country := acc[country][isp := []]];
        }
        acc := acc[country := acc[country][isp := acc[country][isp] + [row.ip]]];
        FoldStep(before, rows, k);
      }
      assert rows[..|rows|] == rows;
      grouped := acc;
    } else {
      grouped := map[];
    }
  }

  /** One step of the fold keeps the table an exact grouping of the records seen, one IP per record. */
  lemma FoldStep(acc: Table, rows: seq<GeoRecord>, k: nat)
    requires k < |rows| && Groups(acc, rows[..k], PageDefaults) && TableTotal(acc) == k
    ensures var t := Push(acc, CountryKey(rows[k], PageDefaults), IspKey(rows[k], PageDefaults), rows[k].ip);
            Groups(t, rows[..k + 1], PageDefaults) && TableTotal(t) == k + 1
  {
    assert rows[..k + 1] == rows[..k] + [rows[k]];
    GroupsPush(acc, rows[..k], rows[k], PageDefaults, rows[..k + 1]);
    TableTotalPush(acc, CountryKey(rows[k], PageDefaults), IspKey(rows[k], PageDefaults), rows[k].ip);
  }

  /** A record without a country or ISP is filed under "Unknown" / "Unknown ISP". */
  lemma MissingFieldsUseDefaults(t: Table, rows: seq<GeoRecord>, j: nat)
    requires Groups(t, rows, PageDefaults) && j < |rows|
    requires rows[j].country.None? && rows[j].isp.None?
    ensures "Unknown" in t && "Unknown ISP" in t["Unknown"] && rows[j].ip in t["Unknown"]["Unknown ISP"]
  {
    FiledUnderOwnKeys(t, rows, PageDefaults, j);
  }
}

=== FILE: crawl.dfy ===
/**
 * The recursive peer crawl (`followRpcAddresses`): starting from a list of
 * peers, follow each peer's RPC address to its `/net_info` endpoint, at most
 * once per URL, and collect every peer found on the way.
 *
 * The network is an oracle: a map from URL to what that URL answers; a URL
 * outside the map is unreachable. Termination rests on a finite universe of
 * URLs closed under the network's answers: each fetch adds a new URL of the
 * universe to the visited set.
 */
module PeerCrawl {
  import opened Options
  import opened Seqs
  import opened PeerTypes
  import opened NetInfo
  import opened RpcAddress
  import opened JsString

  /** What every reachable URL answers. */
  type Network = map<string, Reply>

  /**
   * `fetchPeerInfo(url)` against the network; it never fails: an unreachable
   * URL gives `[]`, a readable answer one peer per listed entry.
   */
  function FetchPeers(net: Network, url: string): (peers: seq<PeerInfo>)
    ensures url !in net || !WellFormed(net[url]) ==> peers == []
    ensures url in net && WellFormed(net[url]) ==> |peers| == |net[url].peers.value|
  {
    FetchPeerInfo(if url in net then net[url] else Unreachable)
  }

  /**
   * The JavaScript truth test on `rpcAddress`: false for the two falsy values
   * a string field can hold, `undefined` and the empty string.
   */
  function HasRpcAddress(p: PeerInfo): (truthy: bool)
    ensures !truthy <==> p.rpcAddress in {None, Some("")}
  {
    p.rpcAddress.Some? && p.rpcAddress.value != ""
  }

  /** The URL a peer leads to, whatever has been visited. */
  function UrlOf(p: PeerInfo): Option<string> {
    if HasRpcAddress(p) then RpcUrl(p.ip, p.rpcAddress.value) else None
  }

  /**
   * The URL the crawl fetches next for `p`: the address must be present and
   * not itself in `visited`, and the derived URL must not be in `visited`.
   */
  function NextUrl(p: PeerInfo, visited: set<string>): (next: Option<string>)
    ensures next.Some? <==> (HasRpcAddress(p) && p.rpcAddress.value !in visited
                             && UrlOf(p).Some? && UrlOf(p).value !in visited)
    ensures next.Some? ==> next == UrlOf(p)
  {
    if HasRpcAddress(p) && p.rpcAddress.value !in visited then
      match RpcUrl(p.ip, p.rpcAddress.value)
      case Some(url) => if url !in visited then Some(url) else None
      case None => None
    else None
  }

  /** Every URL the peers lead to lies in `universe`. */
  ghost predicate Covers(peers: seq<PeerInfo>, universe: set<string>) {
    forall p :: p in peers && UrlOf(p).Some? ==> UrlOf(p).value in universe
  }

  /** `universe` holds every URL that any answer of the network leads to. */
  ghost predicate Closed(net: Network, universe: set<string>) {
    forall url :: url in net ==> Covers(FetchPeers(net, url), universe)
  }

  /** The URLs the network's answers and the starting peers lead to. */
  ghost function Universe(net: Network, seeds: seq<PeerInfo>): (universe: set<string>)
    ensures Closed(net, universe) && Covers(seeds, universe)
  {
    (set url, p | url in net && p in FetchPeers(net, url) && UrlOf(p).Some? :: UrlOf(p).value)
    + (set p | p in seeds && UrlOf(p).Some? :: UrlOf(p).value)
  }

  /**
   * The outcome of expanding a list of peers: the peers found below them
   * (not the list itself), the visited set afterwards and the URLs fetched,
   * in order.
   */
  datatype Expansion = Expansion(found: seq<PeerInfo>, visited: set<string>, fetched: seq<string>)

  /**
   * The crawl loop as a function: for each peer in turn, if it leads to a new
   * URL, mark the URL visited, fetch it, and collect what the recursive crawl
   * of the answer returns (what lies below the answer, then the answer).
   */
  ghost function Expand(net: Network, universe: set<string>, peers: seq<PeerInfo>, visited: set<string>): (e: Expansion)
    requires Closed(net, universe) && Covers(peers, universe)
    ensures visited <= e.visited
    decreases universe - visited, |peers|
  {
    if peers == [] then Expansion([], visited, [])
    else
      match NextUrl(peers[0], visited)
      case None => Expand(net, universe, peers[1..], visited)
      case Some(url) =>
        var answer := FetchPeers(net, url);
        var below := Expand(net, universe, answer, visited + {url});
        var rest := Expand(net, universe, peers[1..], below.visited);
        Expansion(below.found + answer + rest.found, rest.visited, [url] + below.fetched + rest.fetched)
  }

  /** `followRpcAddresses(peers, visited)`: what lies below the peers, then the peers themselves. */
  ghost function Follow(net: Network, universe: set<string>, peers: seq<PeerInfo>, visited: set<string>): (e: Expansion)
    requires Closed(net, universe) && Covers(peers, universe)
  {
    var e := Expand(net, universe, peers, visited);
    e.(found := e.found + peers)
  }

  /**
   * `followRpcAddresses` returns the input peers last, after everything found
   * below them, and only ever adds to the visited set.
   */
  lemma FollowEndsWithPeers(net: Network, universe: set<string>, peers: seq<PeerInfo>, visited: set<string>)
    requires Closed(net, universe) && Covers(peers, universe)
    ensures var e := Follow(net, universe, peers, visited);
            |peers| <= |e.found| && e.found[|e.found| - |peers|..] == peers && visited <= e.visited
  {
  }

  /**
   * No URL is fetched twice, and the URLs fetched are exactly those added to
   * the visited set.
   */
  ghost predicate FetchedExactlyNew(e: Expansion, visited: set<string>) {
    NoDup(e.fetched) && forall url :: url in e.fetched <==> url in e.visited && url !in visited
  }

  /** Each URL is fetched at most once, so a cyclic peer graph is crawled once. */
  lemma {:induction false} FetchedOnce(net: Network, universe: set<string>, peers: seq<PeerInfo>, visited: set<string>)
    requires Closed(net, universe) && Covers(peers, universe)
    ensures FetchedExactlyNew(Expand(net, universe, peers, visited), visited)
    decreases universe - visited, |peers|
  {
    if peers != [] {
      match NextUrl(peers[0], visited)
      case None =>
        FetchedOnce(net, universe, peers[1..], visited);
      case Some(url) =>
        var answer := FetchPeers(net, url);
        var below := Expand(net, universe, answer, visited + {url});
        FetchedOnce(net, universe, answer, visited + {url});
        var rest := Expand(net, universe, peers[1..], below.visited);
        FetchedOnce(net, universe, peers[1..], below.visited);
        NoDupAppend([url], below.fetched);
        NoDupAppend([url] + below.fetched, rest.fetched);
    }
  }

  /** Every URL the crawl fetches is an `http://` URL, never a raw RPC address. */
  lemma {:induction false} FetchedAreUrls(net: Network, universe: set<string>, peers: seq<PeerInfo>, visited: set<string>)
    requires Closed(net, universe) && Covers(peers, universe)
    ensures forall url :: url in Expand(net, universe, peers, visited).fetched ==> StartsWith(url, "http://")
    decreases universe - visited, |peers|
  {
    if peers != [] {
      match NextUrl(peers[0], visited)
      case None =>
        FetchedAreUrls(net, universe, peers[1..], visited);
      case Some(url) =>
        var answer := FetchPeers(net, url);
        var below := Expand(net, universe, answer, visited + {url});
        FetchedAreUrls(net, universe, answer, visited + {url});
        FetchedAreUrls(net, universe, peers[1..], below.visited);
    }
  }

  /** `p` is listed in the answer of one of the URLs in `fetched`. */
  ghost predicate Listed(net: Network, p: PeerInfo, fetched: seq<string>) {
    exists url :: url in fetched && p in FetchPeers(net, url)
  }

  ghost predicate FoundExactlyListed(net: Network, e: Expansion) {
    forall p :: p in e.found <==> Listed(net, p, e.fetched)
  }

  /**
   * The peers found are exactly the peers listed by the URLs fetched: the
   * crawl loses no answer and invents no peer.
   */
  lemma {:induction false} FoundIsFetchedAnswers(net: Network, universe: set<string>, peers: seq<PeerInfo>, visited: set<string>)
    requires Closed(net, universe) && Covers(peers, universe)
    ensures FoundExactlyListed(net, Expand(net, universe, peers, visited))
    decreases universe - visited, |peers|
  {
    var e := Expand(net, universe, peers, visited);
    if peers != [] {
      match NextUrl(peers[0], visited)
      case None =>
        assert e == Expand(net, universe, peers[1..], visited);
        FoundIsFetchedAnswers(net, universe, peers[1..], visited);
      case Some(url) =>
        var answer := FetchPeers(net, url);
        var below := Expand(net, universe, answer, visited + {url});
        FoundIsFetchedAnswers(net, universe, answer, visited + {url});
        var rest := Expand(net, universe, peers[1..], below.visited);
        FoundIsFetchedAnswers(net, universe, peers[1..], below.visited);
        assert e.found == below.found + answer + rest.found;
        assert e.fetched == [url] + below.fetched + rest.fetched;
        forall p ensures p in e.found <==> Listed(net, p, e.fetched) {
          if p in e.found {
            if p in answer {
              assert url in e.fetched;
            } else if p in below.found {
              var u :| u in below.fetched && p in FetchPeers(net, u);
              assert u in e.fetched;
            } else {
              assert p in rest.found;
              var u :| u in rest.fetched && p in FetchPeers(net, u);
              assert u in e.fetched;
            }
          }
          if Listed(net, p, e.fetched) {
            var u :| u in e.fetched && p in FetchPeers(net, u);
            if u == url {
            } else if u in below.fetched {
              assert Listed(net, p, below.fetched);
            } else {
              assert u in rest.fetched;
              assert Listed(net, p, rest.fetched);
            }
          }
        }
    }
  }

  /**
   * After the crawl, a peer leads to no URL left unvisited: either its
   * address was already in the visited set, or the URL it leads to is.
   */
  ghost predicate Settled(p: PeerInfo, visited: set<string>) {
    UrlOf(p).Some? && p.rpcAddress.value !in visited ==> UrlOf(p).value in visited
  }

  ghost predicate AllSettled(e: Expansion) {
    forall p :: p in e.found ==> Settled(p, e.visited)
  }

  lemma SettledMonotonic(p: PeerInfo, visited: set<string>, more: set<string>)
    requires visited <= more && Settled(p, visited)
    ensures Settled(p, more)
  {
  }

  /** Every peer in the result of a crawl is settled in its final visited set. */
  lemma {:induction false} CrawlIsComplete(net: Network, universe: set<string>, peers: seq<PeerInfo>, visited: set<string>)
    requires Closed(net, universe) && Covers(peers, universe)
    ensures AllSettled(Follow(net, universe, peers, visited))
    decreases universe - visited, |peers|
  {
    var e := Expand(net, universe, peers, visited);
    if peers != [] {
      match NextUrl(peers[0], visited)
      case None =>
        assert e == Expand(net, universe, peers[1..], visited);
        CrawlIsComplete(net, universe, peers[1..], visited);
        forall p | p in e.found + peers ensures Settled(p, e.visited) {
          if p == peers[0] {
            assert Settled(p, visited);
            SettledMonotonic(p, visited, e.visited);
          } else {
            assert p in e.found + peers[1..];
          }
        }
      case Some(url) =>
        var answer := FetchPeers(net, url);
        var below := Expand(net, universe, answer, visited + {url});
        CrawlIsComplete(net, universe, answer, visited + {url});
        var rest := Expand(net, universe, peers[1..], below.visited);
        CrawlIsComplete(net, universe, peers[1..], below.visited);
        assert e.found == below.found + answer + rest.found && e.visited == rest.visited;
        forall p | p in e.found + peers ensures Settled(p, e.visited) {
          if p in below.found + answer {
            assert Settled(p, below.visited);
            SettledMonotonic(p, below.visited, e.visited);
          } else if p == peers[0] {
            assert url in e.visited;
          } else {
            assert p in rest.found + peers[1..];
          }
        }
    }
  }

  /** Unfolds `Expand` once at a peer that leads to a new URL. */
  lemma ExpandFetchStep(net: Network, universe: set<string>, peers: seq<PeerInfo>, visited: set<string>, url: string)
    requires Closed(net, universe) && Covers(peers, universe)
    requires peers != [] && NextUrl(peers[0], visited) == Some(url)
    ensures Covers(FetchPeers(net, url), universe) && Covers(peers[1..], universe)
    ensures var inner := Follow(net, universe, FetchPeers(net, url), visited + {url});
            var rest := Expand(net, universe, peers[1..], inner.visited);
            Expand(net, universe, peers, visited) == Expansion(inner.found + rest.found, rest.visited, [url] + inner.fetched + rest.fetched)
  {
  }

  /**
   * The crawl loop after its first `i` peers: what was collected and fetched
   * so far, followed by the expansion of the remaining peers, is the
   * expansion of the whole list.
   */
  ghost predicate LoopState(net: Network, universe: set<string>, initial: seq<PeerInfo>, visited0: set<string>, log0: seq<string>,
                            i: nat, found: seq<PeerInfo>, visited: set<string>, log: seq<string>)
    requires Closed(net, universe) && Covers(initial, universe) && i <= |initial|
  {
    visited0 <= visited
    && Joins(Expand(net, universe, initial, visited0), found, log0, log, Expand(net, universe, initial[i..], visited))
  }

  /** `whole` is `found` and `log` followed by `remaining`. */
  ghost predicate Joins(whole: Expansion, found: seq<PeerInfo>, log0: seq<string>, log: seq<string>, remaining: Expansion) {
    whole.found == found + remaining.found && whole.visited == remaining.visited
    && log0 + whole.fetched == log + remaining.fetched
  }

  /** Moving a fetched URL's crawl from `remaining` to what was collected keeps the join. */
  lemma JoinsFetched(whole: Expansion, found: seq<PeerInfo>, log0: seq<string>, log: seq<string>, remaining: Expansion,
                     url: string, below: Expansion, rest: Expansion)
    requires Joins(whole, found, log0, log, remaining)
    requires remaining == Expansion(below.found + rest.found, rest.visited, [url] + below.fetched + rest.fetched)
    ensures Joins(whole, found + below.found, log0, log + [url] + below.fetched, rest)
  {
    AppendAssociative(found, below.found, rest.found);
    AppendAssociative(log, [url] + below.fetched, rest.fetched);
  }

  /** A peer that leads to no new URL leaves the state as it was. */
  lemma LoopStepSkipped(net: Network, universe: set<string>, initial: seq<PeerInfo>, visited0: set<string>, log0: seq<string>,
                        i: nat, found: seq<PeerInfo>, visited: set<string>, log: seq<string>)
    requires Closed(net, universe) && Covers(initial, universe) && i < |initial|
    requires LoopState(net, universe, initial, visited0, log0, i, found, visited, log)
    requires NextUrl(initial[i], visited).None?
    ensures LoopState(net, universe, initial, visited0, log0, i + 1, found, visited, log)
  {
    assert initial[i..][0] == initial[i] && initial[i..][1..] == initial[i + 1..];
  }

  /** A peer that leads to a new URL leads to one the crawl may still enter. */
  lemma LoopStepEnter(net: Network, universe: set<string>, initial: seq<PeerInfo>, visited0: set<string>, log0: seq<string>,
                      i: nat, found: seq<PeerInfo>, visited: set<string>, log: seq<string>, url: string)
    requires Closed(net, universe) && Covers(initial, universe) && i < |initial|
    requires LoopState(net, universe, initial, visited0, log0, i, found, visited, log)
    requires NextUrl(initial[i], visited) == Some(url)
    ensures url in universe - visited && visited0 <= visited
    ensures Covers(FetchPeers(net, url), universe)
  {
    assert initial[i] in initial;
  }

  /**
   * A peer that leads to a new URL adds the recursive crawl of that URL's
   * answer to the state.
   */
  lemma LoopStepFetched(net: Network, universe: set<string>, initial: seq<PeerInfo>, visited0: set<string>, log0: seq<string>,
                        i: nat, found: seq<PeerInfo>, visited: set<string>, log: seq<string>, url: string,
                        below: seq<PeerInfo>, visited': set<string>, log': seq<string>)
    requires Closed(net, universe) && Covers(initial, universe) && i < |initial|
    requires LoopState(net, universe, initial, visited0, log0, i, found, visited, log)
    requires NextUrl(initial[i], visited) == Some(url)
    requires Covers(FetchPeers(net, url), universe)
    requires var e := Follow(net, universe, FetchPeers(net, url), visited + {url});
             below == e.found && visited' == e.visited && log' == log + [url] + e.fetched
    ensures LoopState(net, universe, initial, visited0, log0, i + 1, found + below, visited', log')
  {
    var peers := initial[i..];
    assert peers[0] == initial[i] && peers[1..] == initial[i + 1..];
    ExpandFetchStep(net, universe, peers, visited, url);
    var inner := Follow(net, universe, FetchPeers(net, url), visited + {url});
    JoinsFetched(Expand(net, universe, initial, visited0), found, log0, log, Expand(net, universe, peers, visited),
                 url, inner, Expand(net, universe, initial[i + 1..], visited'));
  }

  /**
   * The crawler's state: the network it queries, the set of URLs already
   * dispatched (shared by every level of the recursion) and, for the proofs,
   * the log of URLs fetched so far.
   */
  class Crawler {
    const net: Network
    ghost const universe: set<string>
    var visited: set<string>
    ghost var fetchLog: seq<string>

    constructor (net: Network, ghost universe: set<string>)
      ensures this.net == net && this.universe == universe
      ensures visited == {} && fetchLog == []
    {
      this.net := net;
      this.universe := universe;
      visited := {};
      fetchLog := [];
    }

    /**
     * `followRpcAddresses(initial, visited)`: walks the peers in order,
     * recursing into each new URL's answer, and returns everything found
     * below them followed by `initial` itself.
     */
    method FollowRpcAddresses(initial: seq<PeerInfo>) returns (allPeers: seq<PeerInfo>)
      requires Closed(net, universe) && Covers(initial, universe)
      modifies this
      ensures var e := Follow(net, universe, initial, old(visited));
              allPeers == e.found && visited == e.visited && fetchLog == old(fetchLog) + e.fetched
      ensures allPeers[|allPeers| - |initial|..] == initial
      decreases universe - visited
    {
      allPeers := [];
      var i := 0;
      assert initial[0..] == initial;
      while i < |initial|
        invariant 0 <= i <= |initial|
        invariant LoopState(net, universe, initial, old(visited), old(fetchLog), i, allPeers, visited, fetchLog)
      {
        var peerInfo := initial[i];
        if peerInfo.rpcAddress.Some? && peerInfo.rpcAddress.value != "" && peerInfo.rpcAddress.value !in visited {
          var urlToFetch := RpcUrl(peerInfo.ip, peerInfo.rpcAddress.value);
          if urlToFetch.Some? && urlToFetch.value !in visited {
            var url := urlToFetch.value;
            ghost var before, logBefore := visited, fetchLog;
            LoopStepEnter(net, universe, initial, old(visited), old(fetchLog), i, allPeers, visited, fetchLog, url);
            visited := visited + {url};
            fetchLog := fetchLog + [url];
            var additionalPeers := FetchPeers(net, url);
            var found := FollowRpcAddresses(additionalPeers);
            LoopStepFetched(net, universe, initial, old(visited), old(fetchLog), i, allPeers, before, logBefore, url, found, visited, fetchLog);
            allPeers := allPeers + found;
          } else {
            LoopStepSkipped(net, universe, initial, old(visited), old(fetchLog), i, allPeers, visited, fetchLog);
          }
        } else {
          LoopStepSkipped(net, universe, initial, old(visited), old(fetchLog), i, allPeers, visited, fetchLog);
        }
        i := i + 1;
      }
      allPeers := allPeers + initial;
    }
  }
}

=== FILE: geo_batch.dfy ===
/**
 * `fetchGeoInfoBatch`: the crawled IPs are sent to the geolocation provider
 * in chunks of at most 100, and each answer element is paired with the IP
 * at the same position of its chunk. A chunk whose request fails adds
 * nothing; the remaining chunks are still sent.
 */
module GeoBatch {
  import opened Options
  import opened Seqs
  import opened PeerTypes

  /** The provider accepts at most this many queries per batch request. */
  const BatchSize: nat := 100

  /**
   * The batch endpoint: for the IPs of one chunk, either a failure (transport
   * error, timeout, or a body that is not an array) or the list of answers.
   */
  type Provider = seq<string> -> Option<seq<GeoReply>>

  /** The provider answers every successful request with one element per query. */
  ghost predicate Aligned(provider: Provider) {
    forall batch :: provider(batch).Some? ==> |provider(batch).value| == |batch|
  }

  function Min(a: int, b: int): int {
    if a <= b then a else b
  }

  /** The chunks `ips.slice(i, i + 100)` for `i = 0, 100, 200, ...` below `|ips|`: `ceil(|ips| / 100)` of them. */
  function Chunks(ips: seq<string>): (chunks: seq<seq<string>>)
    ensures |chunks| == (|ips| + BatchSize - 1) / BatchSize
    ensures forall k :: 0 <= k < |chunks| ==> 0 < |chunks[k]| <= BatchSize
  {
    seq((|ips| + BatchSize - 1) / BatchSize, k requires 0 <= k < (|ips| + BatchSize - 1) / BatchSize =>
      ips[BatchSize * k .. Min(BatchSize * k + BatchSize, |ips|)])
  }

  /** The request at offset `100 * k` is made exactly when there is a chunk `k`. */
  lemma ChunkCount(ips: seq<string>, k: nat)
    ensures BatchSize * k < |ips| <==> k < |Chunks(ips)|
  {
  }

  /** The first `k` chunks put back together are the first `100 * k` IPs. */
  lemma {:induction false} ChunksPrefix(ips: seq<string>, k: nat)
    requires k <= |Chunks(ips)|
    ensures Flatten(Chunks(ips)[..k]) == ips[..Min(BatchSize * k, |ips|)]
  {
    var chunks := Chunks(ips);
    if k > 0 {
      ChunksPrefix(ips, k - 1);
      assert chunks[..k] == chunks[..k - 1] + [chunks[k - 1]];
      FlattenSnoc(chunks[..k - 1], chunks[k - 1]);
    }
  }

  /** The chunks put back together, in order, are the IPs. */
  lemma ChunksCover(ips: seq<string>)
    ensures Flatten(Chunks(ips)) == ips
  {
    ChunksPrefix(ips, |Chunks(ips)|);
    assert Chunks(ips)[..|Chunks(ips)|] == Chunks(ips);
  }

  /**
   * The records made from one answer: element `j` keeps its own country, ISP,
   * latitude and longitude and is paired with `batch[j]`; an element past
   * the end of the batch gets no IP (`batch[index]` is `undefined`).
   */
  function Label(batch: seq<string>, replies: seq<GeoReply>): (records: seq<GeoRecord>)
    ensures |records| == |replies|
    ensures forall j :: 0 <= j < |records| ==>
              (records[j].ip.Some? <==> j < |batch|) && (j < |batch| ==> records[j].ip.value == batch[j])
    ensures forall j :: 0 <= j < |records| ==>
              records[j].country == replies[j].country && records[j].isp == replies[j].isp &&
              records[j].lat == replies[j].lat && records[j].lon == replies[j].lon
  {
    seq(|replies|, j requires 0 <= j < |replies| =>
      GeoRecord(if j < |batch| then Some(batch[j]) else None,
                replies[j].country, replies[j].isp, replies[j].lat, replies[j].lon))
  }

  /** Every IP as a present value. */
  function Known(ips: seq<string>): (known: seq<Option<string>>)
    ensures |known| == |ips|
  {
    seq(|ips|, j requires 0 <= j < |ips| => Some(ips[j]))
  }

  /** An answer with one element per query labels every query, in order, with its own answer. */
  lemma LabelAligned(batch: seq<string>, replies: seq<GeoReply>)
    requires |replies| == |batch|
    ensures IpsOf(Label(batch, replies)) == Known(batch)
    ensures forall j :: 0 <= j < |batch| ==>
              Label(batch, replies)[j] == GeoRecord(Some(batch[j]), replies[j].country, replies[j].isp, replies[j].lat, replies[j].lon)
  {
  }

  /** What one chunk adds: nothing when its request fails, its labelled answers otherwise. */
  function ChunkResult(batch: seq<string>, provider: Provider): (records: seq<GeoRecord>)
    ensures provider(batch).None? ==> records == []
    ensures provider(batch).Some? ==> |records| == |provider(batch).value|
  {
    match provider(batch)
    case None => []
    case Some(replies) => Label(batch, replies)
  }

  /** The records of the chunks, chunk after chunk. */
  function ResolveAll(chunks: seq<seq<string>>, provider: Provider): seq<GeoRecord> {
    if chunks == [] then []
    else ResolveAll(chunks[..|chunks| - 1], provider) + ChunkResult(chunks[|chunks| - 1], provider)
  }

  /** The answer of `fetchGeoInfoBatch(ips)`: it only labels IPs it was given. */
  function GeoInfo(ips: seq<string>, provider: Provider): (records: seq<GeoRecord>)
    ensures ips == [] ==> records == []
    ensures forall r :: r in records && r.ip.Some? ==> r.ip.value in ips
  {
    ChunksCover(ips);
    ResolveAllIpsWithin(Chunks(ips), provider);
    ResolveAll(Chunks(ips), provider)
  }

  /**
   * The loop of `fetchGeoInfoBatch`: one provider request per chunk, in order,
   * each successful answer appended to what was collected.
   */
  method FetchGeoInfoBatch(ips: seq<string>, provider: Provider) returns (allGeoInfo: seq<GeoRecord>, ghost requests: seq<seq<string>>)
    ensures requests == Chunks(ips) && |requests| == (|ips| + BatchSize - 1) / BatchSize
    ensures allGeoInfo == GeoInfo(ips, provider)
  {
    allGeoInfo := [];
    requests := [];
    var i := 0;
    while i < |ips|
      invariant i == BatchSize * |requests| && |requests| <= |Chunks(ips)|
      invariant requests == Chunks(ips)[..|requests|]
      invariant allGeoInfo == ResolveAll(requests, provider)
    {
      var batch := ips[i..Min(i + BatchSize, |ips|)];
      NextChunk(ips, requests);
      ResolveAllSnoc(requests, batch, provider);
      var response := provider(batch);
      if response.Some? {
        var batchGeoInfo := Label(batch, response.value);
        allGeoInfo := allGeoInfo + batchGeoInfo;
      }
      requests := requests + [batch];
      i := i + BatchSize;
    }
    ChunkCount(ips, |requests|);
    assert Chunks(ips)[..|requests|] == Chunks(ips);
  }

  /** The slice taken at offset `100 * |done|` is the next chunk. */
  lemma NextChunk(ips: seq<string>, done: seq<seq<string>>)
    requires BatchSize * |done| < |ips| && done == Chunks(ips)[..|done|]
    ensures |done| < |Chunks(ips)|
    ensures done + [ips[BatchSize * |done| .. Min(BatchSize * |done| + BatchSize, |ips|)]] == Chunks(ips)[..|done| + 1]
  {
    ChunkCount(ips, |done|);
  }

  /** Resolving one more chunk appends its records. */
  lemma ResolveAllSnoc(chunks: seq<seq<string>>, batch: seq<string>, provider: Provider)
    ensures ResolveAll(chunks + [batch], provider) == ResolveAll(chunks, provider) + ChunkResult(batch, provider)
  {
    assert (chunks + [batch])[..|chunks|] == chunks;
  }

  /** Resolving two runs of chunks one after the other. */
  lemma {:induction false} ResolveAllAppend(front: seq<seq<string>>, back: seq<seq<string>>, provider: Provider)
    ensures ResolveAll(front + back, provider) == ResolveAll(front, provider) + ResolveAll(back, provider)
    decreases |back|
  {
    if back != [] {
      var last := back[|back| - 1];
      assert (front + back)[..|front + back| - 1] == front + back[..|back| - 1];
      ResolveAllAppend(front, back[..|back| - 1], provider);
      AppendAssociative(ResolveAll(front, provider), ResolveAll(back[..|back| - 1], provider), ChunkResult(last, provider));
    } else {
      assert front + back == front;
    }
  }

  /** A failed chunk contributes nothing, and the chunks after it are still resolved. */
  lemma FailedChunkSkipped(front: seq<seq<string>>, batch: seq<string>, back: seq<seq<string>>, provider: Provider)
    requires provider(batch).None?
    ensures ResolveAll(front + [batch] + back, provider) == ResolveAll(front, provider) + ResolveAll(back, provider)
  {
    ResolveAllSnoc(front, batch, provider);
    assert ResolveAll(front + [batch], provider) == ResolveAll(front, provider) + [];
    ResolveAllAppend(front + [batch], back, provider);
  }

  /** When every chunk is answered with one element per query, the records carry the IPs in order. */
  lemma {:induction false} ResolveAllAnswered(chunks: seq<seq<string>>, provider: Provider)
    requires forall k :: 0 <= k < |chunks| ==> provider(chunks[k]).Some? && |provider(chunks[k]).value| == |chunks[k]|
    ensures IpsOf(ResolveAll(chunks, provider)) == Known(Flatten(chunks))
    decreases |chunks|
  {
    if chunks != [] {
      var front, last := chunks[..|chunks| - 1], chunks[|chunks| - 1];
      assert chunks == front + [last];
      ResolveAllAnswered(front, provider);
      LabelAligned(last, provider(last).value);
      FlattenSnoc(front, last);
      IpsOfAppend(ResolveAll(front, provider), ChunkResult(last, provider));
      KnownAppend(Flatten(front), last);
    }
  }

  /** If every request succeeds with one answer per query, the records follow the input IPs exactly. */
  lemma AllAnswered(ips: seq<string>, provider: Provider)
    requires forall batch :: batch in Chunks(ips) ==> provider(batch).Some? && |provider(batch).value| == |batch|
    ensures IpsOf(GeoInfo(ips, provider)) == Known(ips)
  {
    ChunksCover(ips);
    ResolveAllAnswered(Chunks(ips), provider);
  }

  /** Every IP on a record is one of the queried IPs; with an aligned provider every record has one. */
  lemma {:induction false} ResolveAllIpsWithin(chunks: seq<seq<string>>, provider: Provider)
    ensures forall r :: r in ResolveAll(chunks, provider) && r.ip.Some? ==> r.ip.value in Flatten(chunks)
    ensures Aligned(provider) ==> forall r :: r in ResolveAll(chunks, provider) ==> r.ip.Some?
    decreases |chunks|
  {
    if chunks != [] {
      var front, last := chunks[..|chunks| - 1], chunks[|chunks| - 1];
      assert chunks == front + [last];
      ResolveAllIpsWithin(front, provider);
      FlattenSnoc(front, last);
      assert forall r :: r in ChunkResult(last, provider) && r.ip.Some? ==> r.ip.value in last;
    }
  }

  /** With an aligned provider no IP is labelled twice unless it was queried twice. */
  lemma {:induction false} ResolveAllIpsDistinct(chunks: seq<seq<string>>, provider: Provider)
    requires Aligned(provider) && NoDup(Flatten(chunks))
    ensures forall r :: r in ResolveAll(chunks, provider) ==> r.ip.Some?
    ensures NoDup(IpsOf(ResolveAll(chunks, provider)))
    decreases |chunks|
  {
    if chunks != [] {
      var front, last := chunks[..|chunks| - 1], chunks[|chunks| - 1];
      assert chunks == front + [last];
      FlattenSnoc(front, last);
      NoDupAppend(Flatten(front), last);
      ResolveAllIpsDistinct(front, provider);
      ResolveAllIpsWithin(front, provider);
      var a, b := ResolveAll(front, provider), ChunkResult(last, provider);
      IpsOfAppend(a, b);
      if provider(last).Some? {
        LabelAligned(last, provider(last).value);
        KnownNoDup(last);
      }
      assert forall j :: 0 <= j < |b| ==> b[j].ip.Some? && b[j].ip.value in last;
      forall x | x in IpsOf(a) ensures x !in IpsOf(b) {
        var j :| 0 <= j < |a| && a[j].ip == x;
        assert a[j] in a;
      }
      NoDupAppend(IpsOf(a), IpsOf(b));
    }
    ResolveAllIpsWithin(chunks, provider);
  }

  lemma IpsOfAppend(a: seq<GeoRecord>, b: seq<GeoRecord>)
    ensures IpsOf(a + b) == IpsOf(a) + IpsOf(b)
  {
  }

  lemma KnownAppend(a: seq<string>, b: seq<string>)
    ensures Known(a + b) == Known(a) + Known(b)
  {
  }

  lemma KnownNoDup(ips: seq<string>)
    requires NoDup(ips)
    ensures NoDup(Known(ips))
  {
  }

  /** With an aligned provider every record has an IP, and distinct IPs stay distinct. */
  lemma GeoInfoIps(ips: seq<string>, provider: Provider)
    ensures Aligned(provider) ==> forall r :: r in GeoInfo(ips, provider) ==> r.ip.Some?
    ensures Aligned(provider) && NoDup(ips) ==> NoDup(IpsOf(GeoInfo(ips, provider)))
  {
    ChunksCover(ips);
    ResolveAllIpsWithin(Chunks(ips), provider);
    if Aligned(provider) && NoDup(ips) {
      ResolveAllIpsDistinct(Chunks(ips), provider);
    }
  }

  /**
   * 250 IPs make three requests of 100, 100 and 50; when only the second
   * fails, the records are those of the first 100 and the last 50 IPs.
   */
  lemma MiddleChunkFails(ips: seq<string>, provider: Provider)
    requires |ips| == 250 && Aligned(provider)
    requires provider(ips[..100]).Some? && provider(ips[100..200]).None? && provider(ips[200..]).Some?
    ensures Chunks(ips) == [ips[..100], ips[100..200], ips[200..]]
    ensures IpsOf(GeoInfo(ips, provider)) == Known(ips[..100] + ips[200..])
    ensures |GeoInfo(ips, provider)| == 150
  {
    var chunks := Chunks(ips);
    assert |chunks| == 3;
    assert chunks[0] == ips[..100] && chunks[1] == ips[100..200] && chunks[2] == ips[200..];
    assert chunks == [ips[..100], ips[100..200], ips[200..]];
    FailedChunkSkipped([ips[..100]], ips[100..200], [ips[200..]], provider);
    assert [ips[..100]] + [ips[100..200]] + [ips[200..]] == chunks;
    ResolveAllAnswered([ips[..100]], provider);
    ResolveAllAnswered([ips[200..]], provider);
    ResolveAllAppend([ips[..100]], [ips[200..]], provider);
    ResolveAllAnswered([ips[..100], ips[200..]], provider);
    assert [ips[..100]] + [ips[200..]] == [ips[..100], ips[200..]];
    assert Flatten([ips[..100], ips[200..]]) == ips[..100] + ips[200..];
  }
}

=== FILE: grouping.dfy ===
/**
 * What the two dashboard folds have in common: every record is filed under
 * its country and its ISP, and its IP is pushed onto that bucket.
 */
module Grouping {
  import opened Options
  import opened PeerTypes
  import opened Tally

  /**
   * The keys a record without a country or an ISP is filed under. On the
   * peers page they are destructuring defaults; on the charts page there are
   * none, and JavaScript turns the missing value into the key "undefined".
   */
  datatype KeyDefaults = KeyDefaults(country: string, isp: string)

  /** The country a record is filed under: its own, or the default when it has none. */
  function CountryKey(r: GeoRecord, d: KeyDefaults): (key: string)
    ensures r.country.Some? ==> key == r.country.value
    ensures r.country.None? ==> key == d.country
  {
    r.country.GetOr(d.country)
  }

  /** The ISP a record is filed under: its own, or the default when it has none. */
  function IspKey(r: GeoRecord, d: KeyDefaults): (key: string)
    ensures r.isp.Some? ==> key == r.isp.value
    ensures r.isp.None? ==> key == d.isp
  {
    r.isp.GetOr(d.isp)
  }

  /** The IPs of the records filed under `country` and `isp`, in input order. */
  function Bucket(rows: seq<GeoRecord>, d: KeyDefaults, country: string, isp: string): seq<Option<string>> {
    if rows == [] then []
    else
      var last := rows[|rows| - 1];
      Bucket(rows[..|rows| - 1], d, country, isp)
        + (if CountryKey(last, d) == country && IspKey(last, d) == isp then [last.ip] else [])
  }

  /** The number of records filed under `country`. */
  function CountIn(rows: seq<GeoRecord>, d: KeyDefaults, country: string): nat {
    if rows == [] then 0
    else CountIn(rows[..|rows| - 1], d, country) + (if CountryKey(rows[|rows| - 1], d) == country then 1 else 0)
  }

  /** The ISP buckets of one country. */
  type IspBuckets = map<string, seq<Option<string>>>

  /** country -> ISP -> IPs */
  type Table = map<string, IspBuckets>

  /** The size of each bucket. */
  function Sizes(isps: IspBuckets): map<string, nat> {
    map i | i in isps :: |isps[i]|
  }

  /** The number of IPs in all buckets of one country. */
  ghost function IspTotal(isps: IspBuckets): nat {
    SumOf(Sizes(isps))
  }

  /** The number of IPs filed under each country. */
  ghost function Totals(t: Table): map<string, nat> {
    map c | c in t :: IspTotal(t[c])
  }

  /** The number of IPs in the whole table. */
  ghost function TableTotal(t: Table): nat {
    SumOf(Totals(t))
  }

  /**
   * `t` files exactly the records `rows`: one country per country key seen,
   * one ISP per (country, ISP) pair seen, and each bucket holds that pair's IPs
   * in input order.
   */
  ghost predicate Groups(t: Table, rows: seq<GeoRecord>, d: KeyDefaults) {
    CountriesSeen(t, rows, d) && IspsSeen(t, rows, d) && BucketsExact(t, rows, d)
  }

  ghost predicate CountriesSeen(t: Table, rows: seq<GeoRecord>, d: KeyDefaults) {
    forall c :: c in t <==> exists r :: r in rows && CountryKey(r, d) == c
  }

  ghost predicate IspsSeen(t: Table, rows: seq<GeoRecord>, d: KeyDefaults) {
    forall c, i :: c in t ==> (i in t[c] <==> exists r :: r in rows && CountryKey(r, d) == c && IspKey(r, d) == i)
  }

  ghost predicate BucketsExact(t: Table, rows: seq<GeoRecord>, d: KeyDefaults) {
    forall c, i :: c in t && i in t[c] ==> t[c][i] == Bucket(rows, d, c, i)
  }

  /**
   * One fold step: create the country and the ISP bucket when missing, then
   * push the IP. The step replaces only the record's country, whose bucket
   * (or nothing, when new) gains the IP at its end.
   */
  function Push(t: Table, country: string, isp: string, ip: Option<string>): (t': Table)
    ensures var isps := if country in t then t[country] else map[];
            var bucket := if isp in isps then isps[isp] else [];
            t' == t[country := isps[isp := bucket + [ip]]]
  {
    var withCountry := if country !in t then t[country := map[]] else t;
    var withBucket := if isp !in withCountry[country] then withCountry[country := withCountry[country][isp := []]] else withCountry;
    var isps := withCountry[country];
    var empty: seq<Option<string>> := [];
    assert isps[isp := empty][isp := empty + [ip]] == isps[isp := empty + [ip]];
    withBucket[country := withBucket[country][isp := withBucket[country][isp] + [ip]]]
  }

  /** Pushing one more IP onto a bucket adds one to the country's count. */
  lemma IspTotalPush(isps: IspBuckets, isp: string, ip: Option<string>)
    ensures var bucket := if isp in isps then isps[isp] else [];
            IspTotal(isps[isp := bucket + [ip]]) == IspTotal(isps) + 1
  {
    var bucket := if isp in isps then isps[isp] else [];
    assert Sizes(isps[isp := bucket + [ip]]) == Sizes(isps)[isp := |bucket| + 1];
    SumOfUpdate(Sizes(isps), isp, |bucket| + 1);
  }

  /** Each fold step files exactly one more IP. */
  lemma TableTotalPush(t: Table, country: string, isp: string, ip: Option<string>)
    ensures TableTotal(Push(t, country, isp, ip)) == TableTotal(t) + 1
  {
    var isps := if country in t then t[country] else map[];
    var bucket := if isp in isps then isps[isp] else [];
    var isps' := isps[isp := bucket + [ip]];
    IspTotalPush(isps, isp, ip);
    TotalsUpdate(t, country, isps');
    if country !in t {
      assert Sizes(isps) == map[];
    }
    SumOfUpdate(Totals(t), country, IspTotal(isps'));
  }

  lemma TotalsUpdate(t: Table, country: string, isps: IspBuckets)
    ensures Totals(t[country := isps]) == Totals(t)[country := IspTotal(isps)]
  {
  }

  lemma BucketSnoc(rows: seq<GeoRecord>, r: GeoRecord, d: KeyDefaults, country: string, isp: string)
    ensures Bucket(rows + [r], d, country, isp)
         == Bucket(rows, d, country, isp) + (if CountryKey(r, d) == country && IspKey(r, d) == isp then [r.ip] else [])
  {
    assert (rows + [r])[..|rows|] == rows;
  }

  /** Filing one more record keeps the table an exact grouping of the records seen. */
  lemma GroupsPush(t: Table, rows: seq<GeoRecord>, r: GeoRecord, d: KeyDefaults, next: seq<GeoRecord>)
    requires Groups(t, rows, d) && next == rows + [r]
    ensures Groups(Push(t, CountryKey(r, d), IspKey(r, d), r.ip), next, d)
  {
    var country, isp := CountryKey(r, d), IspKey(r, d);
    var isps := if country in t then t[country] else map[];
    var bucket := if isp in isps then isps[isp] else [];
    CountriesPush(t, rows, r, d, isps[isp := bucket + [r.ip]]);
    IspsPush(t, rows, r, d, bucket + [r.ip]);
    BucketsPush(t, rows, r, d);
  }

  /** Filing a record adds its country, whatever it then holds. */
  lemma CountriesPush(t: Table, rows: seq<GeoRecord>, r: GeoRecord, d: KeyDefaults, isps: IspBuckets)
    requires CountriesSeen(t, rows, d)
    ensures CountriesSeen(t[CountryKey(r, d) := isps], rows + [r], d)
  {
    var t' := t[CountryKey(r, d) := isps];
    forall c ensures c in t' <==> exists x :: x in rows + [r] && CountryKey(x, d) == c {
      if c in t && c != CountryKey(r, d) {
        var x :| x in rows && CountryKey(x, d) == c;
        assert x in rows + [r];
      }
    }
  }

  /** Filing a record adds its ISP under its country, whatever the bucket then holds. */
  lemma IspsPush(t: Table, rows: seq<GeoRecord>, r: GeoRecord, d: KeyDefaults, bucket: seq<Option<string>>)
    requires CountriesSeen(t, rows, d) && IspsSeen(t, rows, d)
    ensures var country := CountryKey(r, d);
            var isps := if country in t then t[country] else map[];
            IspsSeen(t[country := isps[IspKey(r, d) := bucket]], rows + [r], d)
  {
    var country, isp := CountryKey(r, d), IspKey(r, d);
    var isps := if country in t then t[country] else map[];
    var t' := t[country := isps[isp := bucket]];
    forall c, i | c in t' ensures i in t'[c] <==> exists x :: x in rows + [r] && CountryKey(x, d) == c && IspKey(x, d) == i {
      if i in t'[c] && !(c == country && i == isp) {
        var x :| x in rows && CountryKey(x, d) == c && IspKey(x, d) == i;
        assert x in rows + [r];
      }
      if c == country && country !in t {
        assert forall x :: x in rows ==> CountryKey(x, d) != c;
      }
    }
  }

  /** Filing a record appends its IP to its own bucket and leaves the others as they were. */
  lemma BucketsPush(t: Table, rows: seq<GeoRecord>, r: GeoRecord, d: KeyDefaults)
    requires Groups(t, rows, d)
    ensures var country, isp := CountryKey(r, d), IspKey(r, d);
            var isps := if country in t then t[country] else map[];
            var bucket := if isp in isps then isps[isp] else [];
            BucketsExact(t[country := isps[isp := bucket + [r.ip]]], rows + [r], d)
  {
    var country, isp := CountryKey(r, d), IspKey(r, d);
    var isps := if country in t then t[country] else map[];
    var bucket := if isp in isps then isps[isp] else [];
    var t' := t[country := isps[isp := bucket + [r.ip]]];
    forall c, i | c in t' && i in t'[c] ensures t'[c][i] == Bucket(rows + [r], d, c, i) {
      BucketSnoc(rows, r, d, c, i);
      if c == country && i == isp && !(c in t && i in t[c]) {
        assert forall x :: x in rows ==> !(CountryKey(x, d) == c && IspKey(x, d) == i);
        BucketEmpty(rows, d, c, i);
      }
    }
  }

  /** A pair no record is filed under has an empty bucket. */
  lemma {:induction false} BucketEmpty(rows: seq<GeoRecord>, d: KeyDefaults, country: string, isp: string)
    requires forall x :: x in rows ==> !(CountryKey(x, d) == country && IspKey(x, d) == isp)
    ensures Bucket(rows, d, country, isp) == []
  {
    if rows != [] {
      assert rows[|rows| - 1] in rows;
      BucketEmpty(rows[..|rows| - 1], d, country, isp);
    }
  }

  /** The IPs in a bucket are exactly the IPs of the records filed under its country and ISP. */
  lemma {:induction false} BucketMembers(rows: seq<GeoRecord>, d: KeyDefaults, country: string, isp: string)
    ensures forall ip :: ip in Bucket(rows, d, country, isp) <==>
              exists r :: r in rows && CountryKey(r, d) == country && IspKey(r, d) == isp && r.ip == ip
  {
    if rows != [] {
      var front, last := rows[..|rows| - 1], rows[|rows| - 1];
      assert rows == front + [last];
      BucketMembers(front, d, country, isp);
    }
  }

  /** More records only add to the end of every bucket: earlier IPs keep their order. */
  lemma {:induction false} BucketAppend(rows: seq<GeoRecord>, more: seq<GeoRecord>, d: KeyDefaults, country: string, isp: string)
    ensures Bucket(rows + more, d, country, isp) == Bucket(rows, d, country, isp) + Bucket(more, d, country, isp)
    decreases |more|
  {
    if more == [] {
      assert rows + more == rows;
    } else {
      var front, last := more[..|more| - 1], more[|more| - 1];
      assert rows + more == (rows + front) + [last];
      BucketSnoc(rows + front, last, d, country, isp);
      BucketAppend(rows, front, d, country, isp);
      BucketSnoc(front, last, d, country, isp);
      assert more == front + [last];
    }
  }

  lemma CountInSnoc(rows: seq<GeoRecord>, r: GeoRecord, d: KeyDefaults, country: string)
    ensures CountIn(rows + [r], d, country) == CountIn(rows, d, country) + (if CountryKey(r, d) == country then 1 else 0)
  {
    assert (rows + [r])[..|rows|] == rows;
  }

  /** In an exact grouping every record's IP sits in the bucket of its own country and ISP. */
  lemma FiledUnderOwnKeys(t: Table, rows: seq<GeoRecord>, d: KeyDefaults, j: nat)
    requires Groups(t, rows, d) && j < |rows|
    ensures CountryKey(rows[j], d) in t && IspKey(rows[j], d) in t[CountryKey(rows[j], d)]
    ensures rows[j].ip in t[CountryKey(rows[j], d)][IspKey(rows[j], d)]
  {
    assert rows[j] in rows;
    BucketMembers(rows, d, CountryKey(rows[j], d), IspKey(rows[j], d));
  }
}

=== FILE: isp_chart.dfy ===
/**
 * The charts page (`src/pages/charts/index.tsx`): the records are folded into
 * country -> { totalIPs, isps: ISP -> list of IPs }, and the selected
 * country's ISPs are projected onto pie slices.
 */
module IspChart {
  import opened Options
  import opened PeerTypes
  import opened Tally
  import opened Grouping

  /** This fold has no defaults: a missing country or ISP becomes the property name "undefined". */
  const ChartDefaults := KeyDefaults("undefined", "undefined")

  /** One country's entry: its counter and its ISP buckets. */
  datatype CountryInfo = CountryInfo(totalIPs: nat, isps: IspBuckets)

  /** country -> CountryInfo */
  type Chart = map<string, CountryInfo>

  /** The buckets of every country, without the counters. */
  function BucketsOf(g: Chart): Table {
    map c | c in g :: g[c].isps
  }

  /**
   * Every country's counter is the number of records filed under it, and
   * the number of IPs in its buckets.
   */
  ghost predicate Counted(g: Chart, rows: seq<GeoRecord>, d: KeyDefaults) {
    forall c :: c in g ==> g[c].totalIPs == CountIn(rows, d, c) && g[c].totalIPs == IspTotal(g[c].isps)
  }

  /**
   * One fold step: create the country and the ISP bucket when missing, push
   * the IP, count it. The step replaces only the record's country entry: one
   * more IP at the end of its bucket, and its counter one higher.
   */
  function Count(g: Chart, country: string, isp: string, ip: Option<string>): (g': Chart)
    ensures var info := if country in g then g[country] else CountryInfo(0, map[]);
            var bucket := if isp in info.isps then info.isps[isp] else [];
            g' == g[country := CountryInfo(info.totalIPs + 1, info.isps[isp := bucket + [ip]])]
  {
    var withCountry := if country !in g then g[country := CountryInfo(0, map[])] else g;
    var withBucket := if isp !in withCountry[country].isps
                      then withCountry[country := withCountry[country].(isps := withCountry[country].isps[isp := []])]
                      else withCountry;
    var isps := withCountry[country].isps;
    var empty: seq<Option<string>> := [];
    assert isps[isp := empty][isp := empty + [ip]] == isps[isp := empty + [ip]];
    var pushed := withBucket[country := withBucket[country].(isps := withBucket[country].isps[isp := withBucket[country].isps[isp] + [ip]])];
    pushed[country := pushed[country].(totalIPs := pushed[country].totalIPs + 1)]
  }

  /** Counting a record files its IP exactly as the peers page does. */
  lemma CountBuckets(g: Chart, country: string, isp: string, ip: Option<string>)
    ensures BucketsOf(Count(g, country, isp, ip)) == Push(BucketsOf(g), country, isp, ip)
  {
    var info := if country in g then g[country] else CountryInfo(0, map[]);
    var bucket := if isp in info.isps then info.isps[isp] else [];
    BucketsOfUpdate(g, country, CountryInfo(info.totalIPs + 1, info.isps[isp := bucket + [ip]]));
  }

  lemma BucketsOfUpdate(g: Chart, country: string, info: CountryInfo)
    ensures BucketsOf(g[country := info]) == BucketsOf(g)[country := info.isps]
  {
  }

  /** One step of the fold keeps the buckets exact and every counter right. */
  lemma CountStep(g: Chart, rows: seq<GeoRecord>, k: nat)
    requires k < |rows| && Groups(BucketsOf(g), rows[..k], ChartDefaults) && Counted(g, rows[..k], ChartDefaults)
    ensures var g' := Count(g, CountryKey(rows[k], ChartDefaults), IspKey(rows[k], ChartDefaults), rows[k].ip);
            Groups(BucketsOf(g'), rows[..k + 1], ChartDefaults) && Counted(g', rows[..k + 1], ChartDefaults)
  {
    var r := rows[k];
    assert rows[..k + 1] == rows[..k] + [r];
    CountBuckets(g, CountryKey(r, ChartDefaults), IspKey(r, ChartDefaults), r.ip);
    GroupsPush(BucketsOf(g), rows[..k], r, ChartDefaults, rows[..k + 1]);
    CountedStep(g, rows[..k], r, rows[..k + 1]);
  }

  /** Counting one more record keeps every counter equal to its records and to its buckets. */
  lemma CountedStep(g: Chart, rows: seq<GeoRecord>, r: GeoRecord, next: seq<GeoRecord>)
    requires CountriesSeen(BucketsOf(g), rows, ChartDefaults) && Counted(g, rows, ChartDefaults) && next == rows + [r]
    ensures Counted(Count(g, CountryKey(r, ChartDefaults), IspKey(r, ChartDefaults), r.ip), next, ChartDefaults)
  {
    var country, isp := CountryKey(r, ChartDefaults), IspKey(r, ChartDefaults);
    var info := if country in g then g[country] else CountryInfo(0, map[]);
    var bucket := if isp in info.isps then info.isps[isp] else [];
    IspTotalPush(info.isps, isp, r.ip);
    CountInSnoc(rows, r, ChartDefaults, country);
    if country !in g {
      assert Sizes(info.isps) == map[];
      FreshCountryUncounted(g, rows, country);
    }
    CountedUpdate(g, rows, r, next, CountryInfo(info.totalIPs + 1, info.isps[isp := bucket + [r.ip]]));
  }

  /** A country not yet in the grouping has no records filed under it. */
  lemma FreshCountryUncounted(g: Chart, rows: seq<GeoRecord>, country: string)
    requires CountriesSeen(BucketsOf(g), rows, ChartDefaults) && country !in g
    ensures CountIn(rows, ChartDefaults, country) == 0
  {
    assert forall x :: x in rows ==> CountryKey(x, ChartDefaults) != country by {
      assert BucketsOf(g).Keys == g.Keys;
    }
    CountInAbsent(rows, ChartDefaults, country);
  }

  /** Replacing the record's own country by a correctly counted entry keeps every counter right. */
  lemma CountedUpdate(g: Chart, rows: seq<GeoRecord>, r: GeoRecord, next: seq<GeoRecord>, info: CountryInfo)
    requires Counted(g, rows, ChartDefaults) && next == rows + [r]
    requires info.totalIPs == CountIn(next, ChartDefaults, CountryKey(r, ChartDefaults)) && info.totalIPs == IspTotal(info.isps)
    ensures Counted(g[CountryKey(r, ChartDefaults) := info], next, ChartDefaults)
  {
    var g' := g[CountryKey(r, ChartDefaults) := info];
    forall c | c in g'
      ensures g'[c].totalIPs == CountIn(next, ChartDefaults, c) && g'[c].totalIPs == IspTotal(g'[c].isps)
    {
      CountInSnoc(rows, r, ChartDefaults, c);
    }
  }

  /** A country no record is filed under has a count of zero. */
  lemma {:induction false} CountInAbsent(rows: seq<GeoRecord>, d: KeyDefaults, country: string)
    requires forall x :: x in rows ==> CountryKey(x, d) != country
    ensures CountIn(rows, d, country) == 0
  {
    if rows != [] {
      assert rows[|rows| - 1] in rows;
      CountInAbsent(rows[..|rows| - 1], d, country);
    }
  }

  /**
   * The `reduce` callback: creates the record's country and ISP bucket when
   * missing, pushes the IP and increments `totalIPs`, one update at a time.
   */
  method CountRecord(acc: Chart, row: GeoRecord) returns (next: Chart)
    ensures next == Count(acc, CountryKey(row, ChartDefaults), IspKey(row, ChartDefaults), row.ip)
  {
    var country := CountryKey(row, ChartDefaults);
    var isp := IspKey(row, ChartDefaults);
    next := acc;
    if country !in next {
      next := next[country := CountryInfo(0, map[])];
    }
    if isp !in next[country].isps {
      next := next[country := next[country].(isps := next[country].isps[isp := []])];
    }
    next := next[country := next[country].(isps := next[country].isps[isp := next[country].isps[isp] + [row.ip]])];
    next := next[country := next[country].(totalIPs := next[country].totalIPs + 1)];
  }

  /**
   * `fetchPeers`' grouping: for an array, the `reduce` that creates each
   * missing entry, pushes the IP and increments `totalIPs`; for anything
   * else, `{}`.
   */
  method GroupWithTotals(data: PeersResponse) returns (grouped: Chart)
    ensures data.NotAnArray? ==> grouped == map[]
    ensures data.PeerArray? ==> Groups(BucketsOf(grouped), data.rows, ChartDefaults)
    ensures data.PeerArray? ==> Counted(grouped, data.rows, ChartDefaults)
  {
    if data.PeerArray? {
      var rows := data.rows;
      var acc: Chart := map[];
      assert BucketsOf(acc) == map[];
      for k := 0 to |rows|
        invariant Groups(BucketsOf(acc), rows[..k], ChartDefaults)
        invariant Counted(acc, rows[..k], ChartDefaults)
      {
        ghost var before := acc;
        acc := CountRecord(acc, rows[k]);
        CountStep(before, rows, k);
      }
      assert rows[..|rows|] == rows;
      grouped := acc;
    } else {
      grouped := map[];
    }
  }

  /** One pie slice: an ISP and how many IPs it has. */
  datatype Slice = Slice(name: string, value: nat)

  /**
   * `Object.entries(isps).map(...)`: one slice per ISP, in the order the
   * object enumerates its keys, given here as `order`.
   */
  function PieData(isps: IspBuckets, order: seq<string>): (slices: seq<Slice>)
    requires Enumerates(order, isps.Keys)
    ensures |slices| == |isps.Keys|
    ensures forall s :: s in slices <==> s.name in isps && s.value == |isps[s.name]|
  {
    EnumerationSize(order, isps.Keys);
    var slices := seq(|order|, j requires 0 <= j < |order| => Slice(order[j], |isps[order[j]]|));
    assert forall s: Slice :: s.name in isps && s.value == |isps[s.name]| ==> s in slices by {
      forall s: Slice | s.name in isps && s.value == |isps[s.name]| ensures s in slices {
        var j :| 0 <= j < |order| && order[j] == s.name;
        assert slices[j] == s;
      }
    }
    slices
  }

  /** An enumeration without repeats has as many entries as there are keys. */
  lemma {:induction false} EnumerationSize(order: seq<string>, keys: set<string>)
    requires Enumerates(order, keys)
    ensures |order| == |keys|
  {
    if order != [] {
      var rest := order[1..];
      forall x ensures x in rest <==> x in keys - {order[0]} {
        if x in rest {
          var b :| 0 <= b < |rest| && rest[b] == x;
          assert order[0] != order[b + 1];
        }
        if x in keys - {order[0]} {
          var b :| 0 <= b < |order| && order[b] == x;
          assert rest[b - 1] == x;
        }
      }
      forall a, b | 0 <= a < b < |rest| ensures rest[a] != rest[b] {
        assert order[a + 1] != order[b + 1];
      }
      EnumerationSize(rest, keys - {order[0]});
    } else {
      assert forall x :: x !in keys;
    }
  }

  /** The slice values in order. */
  function Values(slices: seq<Slice>): (values: seq<nat>)
    ensures |values| == |slices|
  {
    seq(|slices|, j requires 0 <= j < |slices| => slices[j].value)
  }

  /** The slices add up to the number of IPs in the country's buckets. */
  lemma PieTotal(isps: IspBuckets, order: seq<string>)
    requires Enumerates(order, isps.Keys)
    ensures Sum(Values(PieData(isps, order))) == IspTotal(isps)
  {
    assert Sizes(isps).Keys == isps.Keys;
    SumInOrder(Sizes(isps), order);
    assert Values(PieData(isps, order)) == seq(|order|, j requires 0 <= j < |order| => Sizes(isps)[order[j]]);
  }

  /**
   * The pie effect: when a non-empty country that is in the grouping is
   * selected, its slices replace the pie; otherwise the pie is left as it was.
   */
  function SelectPie(selected: Option<string>, grouped: Chart, order: seq<string>, previous: seq<Slice>): (pie: seq<Slice>)
    requires selected.Some? && selected.value in grouped ==> Enumerates(order, grouped[selected.value].isps.Keys)
    ensures selected.Some? && selected.value != "" && selected.value in grouped ==> pie == PieData(grouped[selected.value].isps, order)
    ensures selected.None? || selected.value == "" || selected.value !in grouped ==> pie == previous
  {
    if selected.Some? && selected.value != "" && selected.value in grouped then
      PieData(grouped[selected.value].isps, order)
    else previous
  }

  /** For a selected country of a counted grouping, the pie adds up to that country's `totalIPs`. */
  lemma SelectedPieTotal(selected: string, grouped: Chart, rows: seq<GeoRecord>, order: seq<string>, previous: seq<Slice>)
    requires Counted(grouped, rows, ChartDefaults) && selected != "" && selected in grouped
    requires Enumerates(order, grouped[selected].isps.Keys)
    ensures Sum(Values(SelectPie(Some(selected), grouped, order, previous))) == grouped[selected].totalIPs
    ensures grouped[selected].totalIPs == CountIn(rows, ChartDefaults, selected)
  {
    PieTotal(grouped[selected].isps, order);
  }
}

=== FILE: js_string.dfy ===
/**
 * The few JavaScript string operations the crawler uses to turn an RPC
 * address into a URL: `includes`, `split` on a one-character separator and a
 * prefix test, over strings as sequences of characters.
 */
module JsString {

  /** `sub` occurs in `s` starting at index `i`. */
  predicate OccursAt(s: string, sub: string, i: int) {
    0 <= i && i + |sub| <= |s| && s[i..i + |sub|] == sub
  }

  predicate StartsWith(s: string, prefix: string) {
    |prefix| <= |s| && s[..|prefix|] == prefix
  }

  /** When `sub` does not start `s`, it occurs in `s` exactly when it occurs in the rest of `s`. */
  lemma OccursLater(s: string, sub: string)
    requires |s| > 0 && !StartsWith(s, sub)
    ensures (exists i :: OccursAt(s, sub, i)) <==> exists i :: OccursAt(s[1..], sub, i)
  {
    if exists i :: OccursAt(s[1..], sub, i) {
      var i :| OccursAt(s[1..], sub, i);
      assert s[1..][i..i + |sub|] == s[i + 1..i + 1 + |sub|];
      assert OccursAt(s, sub, i + 1);
    }
    if exists i :: OccursAt(s, sub, i) {
      var i :| OccursAt(s, sub, i);
      assert i != 0;
      assert s[1..][i - 1..i - 1 + |sub|] == s[i..i + |sub|];
      assert OccursAt(s[1..], sub, i - 1);
    }
  }

  /** `s.includes(sub)`: a left-to-right scan, true exactly when `sub` occurs at some index of `s`. */
  function Includes(s: string, sub: string): (found: bool)
    ensures found <==> exists i :: OccursAt(s, sub, i)
    decreases |s|
  {
    if StartsWith(s, sub) then
      assert OccursAt(s, sub, 0);
      true
    else if |s| == 0 then false
    else
      OccursLater(s, sub);
      Includes(s[1..], sub)
  }

  /**
   * Putting a prefix none of whose characters starts `sub` in front of `s`
   * does not change whether `sub` is included.
   */
  lemma {:induction false} IncludesAfterPrefix(prefix: string, s: string, sub: string)
    requires |sub| > 0 && sub[0] !in prefix
    ensures Includes(prefix + s, sub) == Includes(s, sub)
    decreases |prefix|
  {
    if prefix != [] {
      assert (prefix + s)[0] == prefix[0];
      assert !StartsWith(prefix + s, sub);
      assert (prefix + s)[1..] == prefix[1..] + s;
      IncludesAfterPrefix(prefix[1..], s, sub);
    } else {
      assert prefix + s == s;
    }
  }

  /** `s.split(sep)`: the pieces between occurrences of `sep`, always at least one. */
  function Split(s: string, sep: char): (parts: seq<string>)
    ensures |parts| >= 1
    decreases |s|
  {
    if |s| == 0 then [""]
    else
      var tail := Split(s[1..], sep);
      if s[0] == sep then [""] + tail
      else [[s[0]] + tail[0]] + tail[1..]
  }

  /** `parts.join(sep)`. */
  function Join(parts: seq<string>, sep: char): string
    requires |parts| >= 1
  {
    if |parts| == 1 then parts[0] else parts[0] + [sep] + Join(parts[1..], sep)
  }

  /** No piece produced by `split` contains the separator. */
  lemma {:induction false} SplitPiecesLackSeparator(s: string, sep: char)
    ensures forall k :: 0 <= k < |Split(s, sep)| ==> sep !in Split(s, sep)[k]
    decreases |s|
  {
    if |s| > 0 {
      SplitPiecesLackSeparator(s[1..], sep);
    }
  }

  /** A split has one more piece than the string has separators. */
  lemma {:induction false} SplitCount(s: string, sep: char)
    ensures |Split(s, sep)| == multiset(s)[sep] + 1
    decreases |s|
  {
    if |s| > 0 {
      SplitCount(s[1..], sep);
      assert s == [s[0]] + s[1..];
    }
  }

  /** Joining the pieces of a split gives back the string. */
  lemma {:induction false} JoinSplit(s: string, sep: char)
    ensures Join(Split(s, sep), sep) == s
    decreases |s|
  {
    if |s| > 0 {
      var tail := Split(s[1..], sep);
      JoinSplit(s[1..], sep);
      if s[0] == sep {
        assert Split(s, sep)[1..] == tail;
      } else {
        var parts := Split(s, sep);
        assert parts[1..] == tail[1..];
        if |tail| > 1 {
          assert tail == [tail[0]] + tail[1..];
          assert Join(tail, sep) == tail[0] + [sep] + Join(tail[1..], sep);
        }
      }
    }
  }

  /** Splitting a string that has no separator yields that string alone. */
  lemma {:induction false} SplitWithoutSeparator(s: string, sep: char)
    requires sep !in s
    ensures Split(s, sep) == [s]
    decreases |s|
  {
    if |s| > 0 {
      SplitWithoutSeparator(s[1..], sep);
      assert [s[0]] + s[1..] == s;
    }
  }

  /** Splitting `piece + sep + rest` cuts at that separator first. */
  lemma {:induction false} SplitAtFirstSeparator(piece: string, sep: char, rest: string)
    requires sep !in piece
    ensures Split(piece + [sep] + rest, sep) == [piece] + Split(rest, sep)
    decreases |piece|
  {
    var s := piece + [sep] + rest;
    if piece == [] {
      assert s[1..] == rest;
    } else {
      assert s[1..] == piece[1..] + [sep] + rest;
      SplitAtFirstSeparator(piece[1..], sep, rest);
      assert [piece[0]] + piece[1..] == piece;
    }
  }

  /** Splitting the join of separator-free pieces gives back the pieces. */
  lemma {:induction false} SplitJoin(parts: seq<string>, sep: char)
    requires |parts| >= 1
    requires forall k :: 0 <= k < |parts| ==> sep !in parts[k]
    ensures Split(Join(parts, sep), sep) == parts
    decreases |parts|
  {
    if |parts| == 1 {
      SplitWithoutSeparator(parts[0], sep);
    } else {
      SplitAtFirstSeparator(parts[0], sep, Join(parts[1..], sep));
      SplitJoin(parts[1..], sep);
    }
  }
}

=== FILE: net_info.dfy ===
/**
 * What a node's `/net_info` endpoint answers and how the crawler reads it
 * (`fetchPeerInfo`): one peer record per entry of `result.peers`, or nothing
 * at all when the request or the reading fails.
 */
module NetInfo {
  import opened Options
  import opened PeerTypes

  /** `node_info.other`: the part of a peer's node info that carries its RPC address. */
  datatype OtherInfo = OtherInfo(rpcAddress: Option<string>)

  /** `node_info`; `other` is absent when the node did not report it. */
  datatype NodeInfo = NodeInfo(other: Option<OtherInfo>)

  /** One entry of `result.peers`. */
  datatype RawPeer = RawPeer(remoteIp: string, nodeInfo: Option<NodeInfo>)

  /**
   * The outcome of `GET url`: a transport error or timeout, or a JSON body
   * whose `result.peers` array is present or not.
   */
  datatype Reply = Unreachable | Body(peers: Option<seq<RawPeer>>)

  /** Every entry carries `node_info.other`, so reading it cannot throw. */
  predicate Readable(raw: RawPeer) {
    raw.nodeInfo.Some? && raw.nodeInfo.value.other.Some?
  }

  /** The record `fetchPeerInfo` builds from one readable entry. */
  function PeerOf(raw: RawPeer): PeerInfo
    requires Readable(raw)
  {
    PeerInfo(raw.remoteIp, raw.nodeInfo.value.other.value.rpcAddress)
  }

  /** The replies whose reading succeeds. */
  predicate WellFormed(reply: Reply) {
    reply.Body? && reply.peers.Some? && forall k :: 0 <= k < |reply.peers.value| ==> Readable(reply.peers.value[k])
  }

  /**
   * `fetchPeerInfo`: the peers listed by a reply, in order; an unreachable
   * node, a missing `result.peers` or an entry without `node_info.other`
   * (the `map` throws and the `catch` returns `[]`) gives no peers at all.
   */
  function FetchPeerInfo(reply: Reply): (peers: seq<PeerInfo>)
    ensures !WellFormed(reply) ==> peers == []
    ensures WellFormed(reply) ==> |peers| == |reply.peers.value|
    ensures WellFormed(reply) ==> forall k :: 0 <= k < |peers| ==>
              peers[k].ip == reply.peers.value[k].remoteIp &&
              peers[k].rpcAddress == reply.peers.value[k].nodeInfo.value.other.value.rpcAddress
  {
    if WellFormed(reply) then
      var raw := reply.peers.value;
      seq(|raw|, k requires 0 <= k < |raw| => PeerOf(raw[k]))
    else []
  }

  /** The reply of a node that reports exactly the given peers. */
  function NetInfoBody(peers: seq<PeerInfo>): (reply: Reply)
    ensures WellFormed(reply)
  {
    Body(Some(seq(|peers|, k requires 0 <= k < |peers| =>
      RawPeer(peers[k].ip, Some(NodeInfo(Some(OtherInfo(peers[k].rpcAddress))))))))
  }

  /** Reading the reply of a node that reports some peers gives back exactly those peers. */
  lemma {:induction false} FetchNetInfoBody(peers: seq<PeerInfo>)
    ensures FetchPeerInfo(NetInfoBody(peers)) == peers
  {
    var got := FetchPeerInfo(NetInfoBody(peers));
    assert |got| == |peers|;
    forall k | 0 <= k < |peers| ensures got[k] == peers[k] {
    }
  }
}

=== FILE: options.dfy ===
/** An optional value: JavaScript's `undefined` for an absent field. */
module Options {

  datatype Option<+T> = None | Some(value: T) {

    /** The value, or `default` when it is absent (a destructuring default). */
    function GetOr(default: T): T {
      match this
      case Some(v) => v
      case None => default
    }
  }
}

=== FILE: peer_types.dfy ===
/** The records that flow from the crawler to the store and on to the dashboards. */
module PeerTypes {
  import opened Options

  /** A peer as the crawler sees it: its IP and the RPC address it advertises, if any. */
  datatype PeerInfo = PeerInfo(ip: string, rpcAddress: Option<string>)

  /** One element of the geolocation provider's batch answer. */
  datatype GeoReply = GeoReply(country: Option<string>, isp: Option<string>, lat: Option<string>, lon: Option<string>)

  /**
   * A peer with its geolocation: what the refresh stores and what the
   * dashboards read back. The IP is absent when the provider answered with
   * more elements than it was asked about. Latitude and longitude are
   * opaque strings.
   */
  datatype GeoRecord = GeoRecord(ip: Option<string>, country: Option<string>, isp: Option<string>, lat: Option<string>, lon: Option<string>)

  /** The IP of every record, in order. */
  function IpsOf(records: seq<GeoRecord>): (ips: seq<Option<string>>)
    ensures |ips| == |records|
  {
    seq(|records|, j requires 0 <= j < |records| => records[j].ip)
  }

  /** The parsed body of the dashboard's request: an array of records, or anything else. */
  datatype PeersResponse = PeerArray(rows: seq<GeoRecord>) | NotAnArray
}

=== FILE: rpc_address.dfy ===
/**
 * How the crawler turns a peer's advertised RPC address into the URL of that
 * peer's `/net_info` endpoint (the branch at the top of the crawl loop).
 */
module RpcAddress {
  import opened Options
  import opened JsString

  const Wildcard := "0.0.0.0"
  const Loopback := "127.0.0.1"
  const TcpScheme := "tcp://"
  /** What a template literal prints for a missing array element. */
  const Undefined := "undefined"

  /** `http://{hostPort}/net_info` */
  function NetInfoUrl(hostPort: string): string {
    "http://" + hostPort + "/net_info"
  }

  /**
   * `rpcAddress.split(':')[2]`: the text between the second and the third
   * colon; with fewer than two colons there is no such piece and the
   * template prints `undefined`.
   */
  function PortSegment(rpcAddress: string): (port: string)
    ensures ':' !in port
    ensures multiset(rpcAddress)[':'] < 2 ==> port == Undefined
  {
    var parts := Split(rpcAddress, ':');
    SplitPiecesLackSeparator(rpcAddress, ':');
    SplitCount(rpcAddress, ':');
    if |parts| > 2 then parts[2] else Undefined
  }

  /**
   * `rpcAddress.replace(/^tcp:\/\//, '')`: one leading scheme, if present, is
   * dropped, so putting it back gives the address; any other address is kept.
   */
  function StripTcpScheme(rpcAddress: string): (hostPort: string)
    ensures StartsWith(rpcAddress, TcpScheme) ==> TcpScheme + hostPort == rpcAddress
    ensures !StartsWith(rpcAddress, TcpScheme) ==> hostPort == rpcAddress
  {
    if StartsWith(rpcAddress, TcpScheme) then rpcAddress[|TcpScheme|..] else rpcAddress
  }

  /**
   * The URL to crawl for a peer with IP `ip` advertising `rpcAddress`; `None`
   * stands for the empty `urlToFetch` left by a loopback address.
   */
  function RpcUrl(ip: string, rpcAddress: string): (url: Option<string>)
    ensures url.None? <==> Includes(rpcAddress, Loopback) && !Includes(rpcAddress, Wildcard)
    ensures url.Some? ==> StartsWith(url.value, "http://")
  {
    if Includes(rpcAddress, Wildcard) then Some(NetInfoUrl(ip + ":" + PortSegment(rpcAddress)))
    else if !Includes(rpcAddress, Loopback) then Some(NetInfoUrl(StripTcpScheme(rpcAddress)))
    else None
  }

  /** A wildcard address `tcp://0.0.0.0:{port}` is reached at the peer's own IP on that port. */
  lemma WildcardUsesPeerIp(ip: string, port: string)
    requires ':' !in port
    ensures RpcUrl(ip, "tcp://0.0.0.0:" + port) == Some(NetInfoUrl(ip + ":" + port))
  {
    var a := "tcp://0.0.0.0:" + port;
    assert OccursAt(a, Wildcard, 6);
    assert Join(["//0.0.0.0", port], ':') == "//0.0.0.0:" + port;
    assert a == Join(["tcp", "//0.0.0.0", port], ':');
    SplitJoin(["tcp", "//0.0.0.0", port], ':');
  }

  /**
   * Without a scheme the port is the second piece, not the third, so a
   * wildcard `0.0.0.0:{port}` becomes `http://{ip}:undefined/net_info`.
   */
  lemma WildcardWithoutSchemeLosesPort(ip: string, port: string)
    requires ':' !in port
    ensures RpcUrl(ip, "0.0.0.0:" + port) == Some(NetInfoUrl(ip + ":undefined"))
  {
    var a := "0.0.0.0:" + port;
    assert OccursAt(a, Wildcard, 0);
    assert Join(["0.0.0.0", port], ':') == "0.0.0.0" + [':'] + port;
    assert a == Join(["0.0.0.0", port], ':');
    SplitJoin(["0.0.0.0", port], ':');
    assert ip + ":" + Undefined == ip + ":undefined";
  }

  /**
   * Any other address is used as it stands, with or without one leading
   * `tcp://`; only that one scheme is removed.
   */
  lemma {:induction false} PlainAddressKeptVerbatim(ip: string, hostPort: string)
    requires !Includes(hostPort, Wildcard) && !Includes(hostPort, Loopback)
    ensures RpcUrl(ip, TcpScheme + hostPort) == Some(NetInfoUrl(hostPort))
    ensures !StartsWith(hostPort, TcpScheme) ==> RpcUrl(ip, hostPort) == Some(NetInfoUrl(hostPort))
  {
    IncludesAfterPrefix(TcpScheme, hostPort, Wildcard);
    IncludesAfterPrefix(TcpScheme, hostPort, Loopback);
    assert (TcpScheme + hostPort)[|TcpScheme|..] == hostPort;
  }

  /**
   * A loopback address `tcp://127.0.0.1:{port}` is never crawled, for any
   * port without a dot (so that the address cannot hold the wildcard).
   */
  lemma {:induction false} LoopbackIsSkipped(ip: string, port: string)
    requires '.' !in port
    ensures RpcUrl(ip, "tcp://127.0.0.1:" + port) == None
  {
    var prefix := "tcp://127.0.0.1:";
    var a := prefix + port;
    assert a[6..15] == Loopback;
    assert OccursAt(a, Loopback, 6);
    forall i ensures !OccursAt(a, Wildcard, i) {
      if 0 <= i && i + 7 <= |a| {
        var w := a[i..i + 7];
        assert w[0] == a[i] && w[1] == a[i + 1] && w[2] == a[i + 2] && w[4] == a[i + 4];
        if i + 1 < |prefix| {
          assert a[i] == prefix[i] && a[i + 1] == prefix[i + 1];
          if i + 2 < |prefix| {
            assert a[i + 2] == prefix[i + 2];
          }
          if i + 4 < |prefix| {
            assert a[i + 4] == prefix[i + 4];
          }
        } else {
          assert a[i + 1] == port[i + 1 - |prefix|];
        }
      }
    }
  }
}

=== FILE: seqs.dfy ===
/** Small facts about sequences used across the model. */
module Seqs {

  /** No element occurs twice. */
  predicate NoDup<T(==)>(s: seq<T>) {
    forall i, j :: 0 <= i < j < |s| ==> s[i] != s[j]
  }

  /** The concatenation of all the pieces, in order. */
  function Flatten<T>(pieces: seq<seq<T>>): seq<T> {
    if pieces == [] then [] else pieces[0] + Flatten(pieces[1..])
  }

  lemma {:induction false} NoDupAppend<T>(a: seq<T>, b: seq<T>)
    ensures NoDup(a + b) <==> NoDup(a) && NoDup(b) && (forall x :: x in a ==> x !in b)
  {
    if NoDup(a + b) {
      forall i, j | 0 <= i < j < |a| ensures a[i] != a[j] {
        assert a[i] == (a + b)[i] && a[j] == (a + b)[j];
      }
      forall i, j | 0 <= i < j < |b| ensures b[i] != b[j] {
        assert b[i] == (a + b)[|a| + i] && b[j] == (a + b)[|a| + j];
      }
      forall x | x in a ensures x !in b {
        var i :| 0 <= i < |a| && a[i] == x;
        forall j | 0 <= j < |b| ensures b[j] != x {
          assert (a + b)[i] != (a + b)[|a| + j];
        }
      }
    }
    if NoDup(a) && NoDup(b) && (forall x :: x in a ==> x !in b) {
      forall i, j | 0 <= i < j < |a + b| ensures (a + b)[i] != (a + b)[j] {
        if j < |a| {
          assert (a + b)[i] == a[i] && (a + b)[j] == a[j];
        } else if i >= |a| {
          assert (a + b)[i] == b[i - |a|] && (a + b)[j] == b[j - |a|];
        } else {
          assert (a + b)[i] in a && (a + b)[j] == b[j - |a|];
        }
      }
    }
  }

  /** Flattening distributes over appending one more piece. */
  lemma {:induction false} FlattenSnoc<T>(pieces: seq<seq<T>>, last: seq<T>)
    ensures Flatten(pieces + [last]) == Flatten(pieces) + last
  {
    if pieces != [] {
      assert (pieces + [last])[1..] == pieces[1..] + [last];
      FlattenSnoc(pieces[1..], last);
    }
  }

  /** The position where `x` first occurs in `s`. */
  function FirstIndex<T(==)>(s: seq<T>, x: T): (k: nat)
    requires x in s
    ensures k < |s| && s[k] == x && x !in s[..k]
  {
    if s[0] == x then 0
    else
      var k := FirstIndex(s[1..], x) + 1;
      assert s[..k] == [s[0]] + s[1..][..k - 1];
      k
  }

  /** A position holding `x` with no `x` before it is the first one. */
  lemma FirstIndexUnique<T>(s: seq<T>, x: T, k: nat)
    requires k < |s| && s[k] == x && x !in s[..k]
    ensures FirstIndex(s, x) == k
  {
  }

  /** Appending one element moves no first occurrence; a new element comes first at the end. */
  lemma FirstIndexSnoc<T>(s: seq<T>, x: T)
    ensures forall y :: y in s ==> FirstIndex(s + [x], y) == FirstIndex(s, y)
    ensures x !in s ==> FirstIndex(s + [x], x) == |s|
  {
    forall y | y in s ensures FirstIndex(s + [x], y) == FirstIndex(s, y) {
      var k := FirstIndex(s, y);
      assert (s + [x])[..k] == s[..k];
      FirstIndexUnique(s + [x], y, k);
    }
    if x !in s {
      assert (s + [x])[..|s|] == s;
      FirstIndexUnique(s + [x], x, |s|);
    }
  }

  lemma AppendAssociative<T>(a: seq<T>, b: seq<T>, c: seq<T>)
    ensures a + (b + c) == (a + b) + c
  {
  }
}

=== FILE: sync.dfy ===
/**
 * The refresh of the peer store (`updateDatabaseWithPeerInfo`) and the
 * start-up check that fills an empty store (`ensureDatabaseIsPopulated`).
 */
module Sync {
  import opened Options
  import opened Seqs
  import opened PeerTypes
  import opened RpcAddress
  import opened JsString
  import opened PeerCrawl
  import opened GeoBatch

  /** The `PeerInfo` collection: its documents, in insertion order. */
  class PeerStore {
    var docs: seq<GeoRecord>

    constructor ()
      ensures docs == []
    {
      docs := [];
    }

    /** `countDocuments()`. */
    method CountDocuments() returns (count: nat)
      ensures count == |docs|
    {
      count := |docs|;
    }

    /** `deleteMany()` with no filter: every document goes. */
    method DeleteMany()
      modifies this
      ensures docs == []
    {
      docs := [];
    }

    /** `insertMany(records)`: the records are added after the existing documents. */
    method InsertMany(records: seq<GeoRecord>)
      modifies this
      ensures docs == old(docs) + records
    {
      docs := docs + records;
    }
  }

  /**
   * `[...new Set(xs)]`: each value once, in the order of the values' first
   * occurrences in `xs` (a `Set` iterates in insertion order).
   */
  function Dedupe(xs: seq<string>): (unique: seq<string>)
    ensures NoDup(unique)
    ensures forall x :: x in unique <==> x in xs
    ensures |unique| <= |xs|
    ensures forall i, j :: 0 <= i < j < |unique| ==> FirstIndex(xs, unique[i]) < FirstIndex(xs, unique[j])
  {
    if xs == [] then []
    else
      var front := Dedupe(xs[..|xs| - 1]);
      var last := xs[|xs| - 1];
      assert xs == xs[..|xs| - 1] + [last];
      FirstIndexSnoc(xs[..|xs| - 1], last);
      if last in front then front
      else
        NoDupAppend(front, [last]);
        front + [last]
  }

  /** A list without repeats is its own set spread back into a list. */
  lemma {:induction false} DedupeDistinct(xs: seq<string>)
    requires NoDup(xs)
    ensures Dedupe(xs) == xs
  {
    if xs != [] {
      var front := xs[..|xs| - 1];
      assert xs == front + [xs[|xs| - 1]];
      NoDupAppend(front, [xs[|xs| - 1]]);
      DedupeDistinct(front);
    }
  }

  /** The IP of every crawled peer, in crawl order. */
  function PeerIps(peers: seq<PeerInfo>): (ips: seq<string>)
    ensures |ips| == |peers|
    ensures forall j :: 0 <= j < |peers| ==> ips[j] == peers[j].ip
  {
    seq(|peers|, j requires 0 <= j < |peers| => peers[j].ip)
  }

  /** `http://${NODE_IP}/net_info`, where the crawl starts. */
  function SeedUrl(nodeIp: string): (url: string)
    ensures url == "http://" + nodeIp + "/net_info"
  {
    NetInfoUrl(nodeIp)
  }

  /**
   * The seed URL is fetched before the crawl and never marked visited, so a
   * peer of the seed's answer that leads back to it makes the crawl fetch it
   * again, unless its raw address is itself a visited URL.
   */
  lemma SeedFetchedAgain(net: Network, nodeIp: string, p: PeerInfo)
    requires p in FetchPeers(net, SeedUrl(nodeIp))
    requires UrlOf(p) == Some(SeedUrl(nodeIp)) && !StartsWith(p.rpcAddress.value, "http://")
    ensures var initialPeers := FetchPeers(net, SeedUrl(nodeIp));
            SeedUrl(nodeIp) in Follow(net, Universe(net, initialPeers), initialPeers, {}).fetched
  {
    var initialPeers := FetchPeers(net, SeedUrl(nodeIp));
    var universe := Universe(net, initialPeers);
    var e := Expand(net, universe, initialPeers, {});
    CrawlIsComplete(net, universe, initialPeers, {});
    FetchedOnce(net, universe, initialPeers, {});
    FetchedAreUrls(net, universe, initialPeers, {});
    assert p in Follow(net, universe, initialPeers, {}).found;
    assert Settled(p, e.visited);
    assert p.rpcAddress.value !in e.fetched;
  }

  /** In particular, a peer that gives the node's own host and port as its address. */
  lemma SeedFetchedTwice(net: Network, nodeIp: string, p: PeerInfo)
    requires p in FetchPeers(net, SeedUrl(nodeIp)) && p.rpcAddress == Some(nodeIp)
    requires !Includes(nodeIp, Wildcard) && !Includes(nodeIp, Loopback)
    requires !StartsWith(nodeIp, TcpScheme) && !StartsWith(nodeIp, "http://") && nodeIp != ""
    ensures var initialPeers := FetchPeers(net, SeedUrl(nodeIp));
            SeedUrl(nodeIp) in Follow(net, Universe(net, initialPeers), initialPeers, {}).fetched
  {
    PlainAddressKeptVerbatim(p.ip, nodeIp);
    SeedFetchedAgain(net, nodeIp, p);
  }

  /** Every peer reachable from the node: the crawl that starts from its own answer. */
  ghost function CrawlFrom(net: Network, nodeIp: string): seq<PeerInfo> {
    var initialPeers := FetchPeers(net, SeedUrl(nodeIp));
    Follow(net, Universe(net, initialPeers), initialPeers, {}).found
  }

  /** What a refresh leaves in the store: the geolocated distinct IPs of the crawl. */
  ghost function Refreshed(net: Network, nodeIp: string, provider: Provider): seq<GeoRecord> {
    GeoInfo(Dedupe(PeerIps(CrawlFrom(net, nodeIp))), provider)
  }

  /**
   * `updateDatabaseWithPeerInfo`: crawl from the node, geolocate the distinct
   * IPs, then replace the store's contents with the records.
   */
  method UpdateDatabaseWithPeerInfo(store: PeerStore, net: Network, nodeIp: string, provider: Provider)
    modifies store
    ensures store.docs == Refreshed(net, nodeIp, provider)
  {
    var initialUrl := SeedUrl(nodeIp);
    var initialPeers := FetchPeers(net, initialUrl);
    var crawler := new Crawler(net, Universe(net, initialPeers));
    var allPeers := crawler.FollowRpcAddresses(initialPeers);
    var uniqueIPs := Dedupe(PeerIps(allPeers));
    var peersWithGeo, _ := FetchGeoInfoBatch(uniqueIPs, provider);
    store.DeleteMany();
    store.InsertMany(peersWithGeo);
  }

  /** `ensureDatabaseIsPopulated`: refreshes the store only when it holds no documents. */
  method EnsureDatabaseIsPopulated(store: PeerStore, net: Network, nodeIp: string, provider: Provider)
    modifies store
    ensures old(store.docs) == [] ==> store.docs == Refreshed(net, nodeIp, provider)
    ensures old(store.docs) != [] ==> store.docs == old(store.docs)
  {
    var count := store.CountDocuments();
    if count == 0 {
      UpdateDatabaseWithPeerInfo(store, net, nodeIp, provider);
    }
  }

  /**
   * After a refresh every stored IP is a crawled IP; with an aligned provider
   * every record has an IP and no IP is stored twice.
   */
  lemma RefreshedIps(net: Network, nodeIp: string, provider: Provider)
    ensures forall r :: r in Refreshed(net, nodeIp, provider) && r.ip.Some? ==>
              exists p :: p in CrawlFrom(net, nodeIp) && p.ip == r.ip.value
    ensures Aligned(provider) ==> forall r :: r in Refreshed(net, nodeIp, provider) ==> r.ip.Some?
    ensures Aligned(provider) ==> NoDup(IpsOf(Refreshed(net, nodeIp, provider)))
  {
    var crawled := CrawlFrom(net, nodeIp);
    var ips := PeerIps(crawled);
    GeoInfoIps(Dedupe(ips), provider);
    forall r | r in Refreshed(net, nodeIp, provider) && r.ip.Some?
      ensures exists p :: p in crawled && p.ip == r.ip.value
    {
      var j :| 0 <= j < |ips| && ips[j] == r.ip.value;
      assert crawled[j] in crawled;
    }
  }

  /**
   * When every request is answered with one element per query, the store
   * holds one record per distinct IP of the crawl's result, in the order of
   * each IP's first occurrence there: the peers a list leads to come before
   * that list, and the seed's own peers come last.
   */
  lemma RefreshedAllAnswered(net: Network, nodeIp: string, provider: Provider)
    requires forall batch :: provider(batch).Some? && |provider(batch).value| == |batch|
    ensures IpsOf(Refreshed(net, nodeIp, provider)) == Known(Dedupe(PeerIps(CrawlFrom(net, nodeIp))))
  {
    AllAnswered(Dedupe(PeerIps(CrawlFrom(net, nodeIp))), provider);
  }
}

=== FILE: tally.dfy ===
/** Sums over the values of a finite map, for the dashboards' per-key counters. */
module Tally {

  /** The sum of all values of `m`. */
  ghost function SumOf<K>(m: map<K, nat>): nat
    decreases |m|
  {
    if m == map[] then 0
    else
      var k :| k in m;
      assert |m - {k}| < |m| by { MapRemoveSmaller(m, k); }
      m[k] + SumOf(m - {k})
  }

  lemma MapRemoveSmaller<K>(m: map<K, nat>, k: K)
    requires k in m
    ensures |m - {k}| == |m| - 1
  {
    assert (m - {k}).Keys == m.Keys - {k};
  }

  /** The sum splits off any one key, whichever the definition happened to pick. */
  lemma {:induction false} SumOfRemove<K>(m: map<K, nat>, k: K)
    requires k in m
    ensures SumOf(m) == m[k] + SumOf(m - {k})
    decreases |m|
  {
    var j :| j in m && SumOf(m) == m[j] + SumOf(m - {j});
    if j != k {
      MapRemoveSmaller(m, j);
      MapRemoveSmaller(m, k);
      SumOfRemove(m - {j}, k);
      SumOfRemove(m - {k}, j);
      assert m - {j} - {k} == m - {k} - {j};
    }
  }

  /** Setting one key's value changes the sum by the difference. */
  lemma SumOfUpdate<K>(m: map<K, nat>, k: K, v: nat)
    ensures SumOf(m[k := v]) + (if k in m then m[k] else 0) == SumOf(m) + v
  {
    SumOfRemove(m[k := v], k);
    assert m[k := v] - {k} == m - {k};
    if k in m {
      SumOfRemove(m, k);
    } else {
      assert m - {k} == m;
    }
  }

  /** The sum of a list of counts. */
  function Sum(counts: seq<nat>): nat {
    if counts == [] then 0 else counts[0] + Sum(counts[1..])
  }

  /** `order` lists every key of `m` exactly once. */
  ghost predicate Enumerates<K(!new)>(order: seq<K>, keys: set<K>) {
    (forall k :: k in order <==> k in keys) && forall a, b :: 0 <= a < b < |order| ==> order[a] != order[b]
  }

  /** Adding up the values in the order of any enumeration of the keys gives the map's sum. */
  lemma {:induction false} SumInOrder<K(!new)>(m: map<K, nat>, order: seq<K>)
    requires Enumerates(order, m.Keys)
    ensures Sum(seq(|order|, j requires 0 <= j < |order| => m[order[j]])) == SumOf(m)
    decreases |order|
  {
    var counts := seq(|order|, j requires 0 <= j < |order| => m[order[j]]);
    if order == [] {
      assert m.Keys == {};
      assert m == map[];
    } else {
      var k := order[0];
      var rest := m - {k};
      forall x ensures x in order[1..] <==> x in rest.Keys {
        if x in order[1..] {
          var b :| 1 <= b < |order| && order[b] == x;
          assert order[0] != order[b];
        }
        if x in rest.Keys {
          var b :| 0 <= b < |order| && order[b] == x;
          assert b != 0;
          assert order[1..][b - 1] == x;
        }
      }
      assert forall a, b :: 0 <= a < b < |order[1..]| ==> order[1..][a] != order[1..][b] by {
        forall a, b | 0 <= a < b < |order[1..]| ensures order[1..][a] != order[1..][b] {
          assert order[a + 1] != order[b + 1];
        }
      }
      SumInOrder(rest, order[1..]);
      assert counts[1..] == seq(|order[1..]|, j requires 0 <= j < |order[1..]| => rest[order[1..][j]]);
      SumOfRemove(m, k);
    }
  }
}
